=== FILE: README.md ===
# Accessible Bluff: the game server's core, in Dafny

This project models the server of Accessible Bluff, a multiplayer "Bluff" card game:

- Players take turns putting cards face down and declaring a rank.
- Any other player may challenge the last play while the time to challenge runs.
- A challenge reveals the cards. A caught bluff sends the revealed cards back to the player who played them; an honest play sends them to the challenger.
- A room may hold a computer player (the bot) in seat 1.

The model covers these parts of the repository:

- **helpers/game.js**: turn rotation (`changeTurn`, `findLastActivePlayer`), the Fisher-Yates `shuffleArray` and the dealing loop of `distributeCards`. These are in `turns.dfy` and `dealing.dfy`.
- **helpers/bot/strategies**: the three move strategies, as pure functions over the candidate moves. These are in `strategies.dfy`.
- **helpers/bot.js**: the `Bot` class, a Dafny class whose methods update its hand, per-rank table, history, ten-entry window and per-opponent tallies. Its decisions are specified by pure functions. The recorded actions and candidate moves are in `moves.dfy`; the rest is in `bot.dfy`.
- **server.js**:
  - the room record, a class `Room`;
  - the socket handlers for place, challenge and pass;
  - the timer callbacks: the end of the time to challenge, the turn after a challenge, the random opener after everyone passed, and `startGame`;
  - the bot's move (`scheduleBotTurn`'s callback) and `processBotChallenge`;
  - the `distributeCards` override that keeps the dealt hands;
  - all of the above are in `room.dfy`.
- **server.js, the registry**: the `rooms`, `roomCounts` and `bots` dictionaries, and the connection handler. That handler joins the oldest room that has someone in it and a free seat, or else creates a room (with a bot when the handshake asks for one). The disconnect handler frees the seat, tears the room down when no human is left, and passes on the turn of a leaver who held it. The registry is a class `Registry` in `server.dfy`.

Modelling choices:

- **Timers.** Each handler returns the timer callbacks it schedules, as values. `Registry.Fire` runs a callback when it fires, and does nothing once the room is gone.
- **Randomness.** Every `Math.random()` value is a parameter in [0, 1). The server deck as `CardDeck.shuffle()` leaves it is also a parameter.
- **Room ids.** Rooms are numbered in creation order. The server uses uuids, but `Object.entries` lists rooms in insertion order, and the model's `order` keeps that order.
- **The challenge window.** The model keeps the code's semantics: there is no generation check and no cancellation. A challenge that arrives after the time to challenge still resolves. The timeout path records a pending winner whether or not a challenge came first.

Some behaviour of the code is easy to misread; the model keeps it as written:

- **No protocol checks.** The place handler (server.js:470-500) does not check that the player who places holds the turn, that a play keeps the round's declared rank, or that the time to challenge is still open. The raise handler only refuses a challenge of one's own play (server.js:549-552; `Rooms.Room.Challenge`, first ensures). The first play of a round fixes `bluff_text`; later human plays do not change it (server.js:491-494). Every play of the bot re-declares it (`Rooms.Room.BotPlayed`).
- **Changing the turn with one seat left.** `changeTurn` (helpers/game.js:9-30) declares the last seat the winner only when its skip loop runs at least `clients.length - 1` times, that is, when the loop reaches that seat last: the seat holds the turn, or it is the last seat before the first turn. Otherwise the seat just gets the turn (`Turns.NextTurnWithOneActiveSeat`).
- **Candidate moves.** The candidates are one honest place per held rank, then a pass. There is no "declare any rank" candidate, and no candidate is flagged safe, so the hard strategy's safe fallback never applies (`BotEngine.PossibleMovesFacts`).
- **A turn can rest on a winner.** After a challenge, the turn is set to the challenger or to the player before changeTurn runs, and that seat may already have won. The model proves the "never on a winner" property only for the turn that changeTurn hands out (`Turns.TurnChangeLandsOnActiveSeat`).
- **A failed bot challenge crashes.** When the bot challenges an honest play, `processBotChallenge` sends the penalty through `socket`, which is not defined in that function. The callback throws at that point, and an uncaught exception in a timer ends the server. The model returns the outcome `Crashed` with the state as it was when the throw happened (`Rooms.Room.BotChallengesPlay`).

## Model

| member | source | states |
|---|---|---|
| Basics.JsRem | helpers/game.js:9 | `%` truncates toward zero: a non-negative dividend gives a result in [0, n), and a value below n is its own remainder |
| Basics.ScaledIndex | helpers/game.js:74 | `Math.floor(draw * len)` for a draw in [0, 1) is a valid index below `len` |
| Basics.NatToString | server.js:506 | a template literal prints a number as decimal digits only, without a leading zero, that denote the number |
| Basics.NatToStringInjective | server.js:506 | two numbers print the same exactly when they are equal |
| Basics.PlayerLabel | server.js:506 | the label of a seat is `Player ` followed by the decimal rendering of the position plus one |
| Basics.PlayerLabelInjective | server.js:506 | two seats get the same label exactly when they are the same seat, so the bot never merges the records of two players |
| Basics.IndexOf | server.js:473 | `indexOf` is -1 exactly when the item is absent; otherwise it is the first position holding the item |
| Turns.ScanFacts | helpers/game.js:9-17 | the skip loop visits the seats after the current one in order, skips only seats that have won, and stops at the first seat that has not won or after n skips |
| Turns.LowestActiveSeat | helpers/game.js:41-51 | the lowest seat that has not won, or -1 exactly when every seat has won |
| Turns.FindLastActivePlayer | helpers/game.js:41-51 | the upward loop returns the lowest seat that has not won, and -1 exactly when all have won |
| Turns.NextTurn | helpers/game.js:3-32 | a room with no seats is left alone; an award goes to a seat that has not won; a moved turn lands on a seat of the room |
| Turns.NextTurnMovesToNearestActive | helpers/game.js:9-32 | with two seats still playing, the turn moves to the nearest seat after the current one, going round the table, that has not won |
| Turns.NextTurnWithOneActiveSeat | helpers/game.js:12-30 | with one seat still playing, it is declared the winner exactly when the scan reaches it last; otherwise it gets the turn |
| Turns.NextTurnAllWon | helpers/game.js:12-32 | when every seat has won, the turn still moves one seat on |
| Turns.NewTurnNeverWon | helpers/game.js:9-32 | while some seat has not won, changeTurn never gives the turn to a seat that has |
| Turns.AfterTurnChange | helpers/game.js:20-32 | changeTurn only appends to the won list, at most one seat, and that seat is a seat of the room |
| Turns.TurnChangeLandsOnActiveSeat | helpers/game.js:9-32 | after changeTurn, the turn is held by a seat that has not won, unless every seat has won |
| Dealing.SwapPermutes | helpers/game.js:75 | swapping two cards keeps the length and the multiset of the deck |
| Dealing.ShuffleFromPermutes | helpers/game.js:73-76 | the Fisher-Yates loop keeps the length and the multiset of the deck |
| Dealing.FisherYatesPermutes | helpers/game.js:72-78 | the shuffle is a permutation of the deck |
| Dealing.ShuffleArray | server.js:764-770 | the in-place shuffle leaves the array holding the Fisher-Yates shuffle of its old contents, a permutation of them |
| Dealing.DealPartitions | server.js:777-779 | the splice loop produces one hand per player; the hands followed by the remainder are the deck |
| Dealing.DealEvenly | server.js:760-779 | with enough cards, every hand has `per` cards, the hands are the front of the deck, and the rest is what follows |
| Dealing.FullDeckDealsEvenly | server.js:760-779 | a 52-card deck gives every player `52 / players` cards and keeps `52 % players` |
| Dealing.DivisionOf52 | server.js:761 | `Math.floor(52 / players)` cards each, with `52 % players` left over |
| Dealing.SpliceHands | helpers/game.js:63-64 | the dealing loop produces one hand per player that together with the rest is the deck, and with enough cards the hands are equal and come from its front |
| Strategies.RandomPick | helpers/bot/strategies/easyStrategy.js:6-8 | the random pick is undefined exactly when there are no candidates; otherwise it is one of them |
| Strategies.EasyMove | helpers/bot/strategies/easyStrategy.js:3-12 | the easy move is a candidate or a previous move, and undefined only when there are no candidates and no fallback; below the bluff frequency it is a random candidate, otherwise the oldest previous move, else the first candidate |
| Strategies.MediumMove | helpers/bot/strategies/mediumStrategy.js:3-13 | as for the easy strategy, but the fallback is the most recent previous move |
| Strategies.FindPattern | helpers/bot/strategies/hardStrategy.js:9-13 | the first pattern for the last move, found only when one exists |
| Strategies.FirstSafe | helpers/bot/strategies/hardStrategy.js:40 | the first candidate flagged safe, found only when one exists |
| Strategies.AdjustedFrequencyGrows | helpers/bot/strategies/hardStrategy.js:26-31 | the hard bluff frequency rises by 0.05 per recorded bluff of the last move, and by 0.1 at four cards or fewer |
| Strategies.HardMove | helpers/bot/strategies/hardStrategy.js:3-42 | the hard move is always a candidate, and undefined only without candidates; a recognised counter comes first, then a random candidate below the adjusted frequency, then the first safe candidate, else the first |
| Strategies.HardCounterNeedsNoDraw | helpers/bot/strategies/hardStrategy.js:15-23 | a recognised counter-move is played whatever the random draws are |
| BotEngine.LoadStrategy | helpers/bot.js:35-42 | "easy" and "hard" select their own strategy; every other name selects the medium one |
| BotEngine.BluffProbability | helpers/bot.js:112-123 | every level bluffs with a probability strictly between 0 and 1 |
| BotEngine.ChallengeProbability | helpers/bot.js:129-140 | every level challenges with a probability strictly between 0 and 1 |
| BotEngine.HarderLevelsBluffAndChallengeMore | helpers/bot.js:112-140 | easy < medium < hard, for both the bluff and the challenge probability |
| BotEngine.UnknownLevelPlaysLikeMedium | helpers/bot.js:35-42 | an unknown level name gets the medium strategy and the medium odds |
| BotEngine.MakeMove | helpers/bot.js:164 | the strategy's choice is one of the candidates or of the previous moves |
| BotEngine.Tally | helpers/bot.js:89-104 | a play counts once, as a bluff or as honest; a challenge counts once, as successful or failed; bluffs plus honest plays stay equal to the total |
| BotEngine.UpdatePatterns | helpers/bot.js:78-105 | only a hard bot tallies, and never its own actions; it tallies the actor (created at zero) and leaves every other record alone |
| BotEngine.BluffRatio | helpers/bot.js:293-297 | for a balanced tally, the ratio lies in [0, 1] |
| BotEngine.UnflaggedPlaysNeverRaiseRatio | server.js:504-509 | a human's recorded play carries no bluff flag, so a tally of such plays keeps a bluff ratio of 0 |
| BotEngine.CardsOfValue | helpers/bot.js:60 | the filter keeps exactly the hand's cards of that rank, and is never longer than the hand |
| BotEngine.CardsOfValueKeepsCopiesInOrder | helpers/bot.js:60 | the filter keeps each card of that rank as many times as the hand holds it, no card of another rank, and the hand's order |
| BotEngine.CardsOfValueAppend | helpers/bot.js:243-244 | the filter of an extended hand is the old filter followed by the filter of the added cards |
| BotEngine.GroupByValue | helpers/bot.js:56-62 | the table has exactly the thirteen ranks as keys, each holding exactly the cards of that rank |
| BotEngine.GroupByValueKeepsCopiesInOrder | helpers/bot.js:56-62 | each rank's entry holds every card of that rank as many times as the hand holds it, no other card, in the hand's order |
| BotEngine.TableOf | helpers/bot.js:58-61 | the loop over the ranks builds the per-rank table |
| BotEngine.PlacesForFacts | helpers/bot.js:205-213 | a candidate exists for a rank exactly when the hand holds it, and it plays every card of that rank |
| BotEngine.KeyOrderListsEveryRank | helpers/bot.js:205 | the key enumeration order lists exactly the thirteen ranks |
| BotEngine.PossibleMovesFacts | helpers/bot.js:202-217 | the candidates are one place per held rank, playing all cards of that rank, then a final pass; none is flagged safe |
| BotEngine.RemoveFirstMultiset | helpers/bot.js:226-231 | one removal takes away one copy of the card, if the hand holds it |
| BotEngine.RemoveEachMultiset | helpers/bot.js:223-236 | removeCards takes away exactly the listed cards that the hand holds (multiset difference) |
| BotEngine.RemoveEachPrefix | helpers/bot.js:184-189 | removing the first k cards of the hand leaves the rest of the hand, in order |
| BotEngine.PlaceCount | helpers/bot.js:183 | the count of a play (the move's count, or 1 without one) is never 0 |
| BotEngine.AsMoves | helpers/bot.js:158 | the strategy sees the whole history, entry by entry |
| BotEngine.DecideFacts | helpers/bot.js:148-197 | an empty hand passes; a play is a non-empty run from the front of the hand, and it is a bluff exactly when the declared rank differs from the first card's |
| BotEngine.DecideCandidate | helpers/bot.js:164-196 | playing a generated candidate declares its rank and plays as many cards as the hand holds of it |
| BotEngine.PlaceCandidate | helpers/bot.js:202-217 | a place candidate names a rank of the game and plays all the hand's cards of it |
| BotEngine.EasyBotWithHistoryPlaysHonestly | helpers/bot.js:181-197 | an easy bot that does not bluff and has history replays its oldest action: it plays its first card alone, under that card's own rank |
| BotEngine.ReadCount | helpers/bot.js:263-306 | `cardsByValue[declaredValue].length` throws exactly before any table, or for a key that is neither in the table nor inherited from `Object.prototype` (an absent declaration is the key "undefined"); a table key reads its list's length, an inherited method its `length`, `__proto__` reads `undefined` |
| BotEngine.ReadCountOnTable | helpers/bot.js:58-61 | on the table organizeCards builds, a rank reads as the number of cards of that rank held, and an inherited name never throws (`__proto__` reads `undefined`) |
| BotEngine.EasyReadsConstructorAsHeld | helpers/bot.js:261-266 | a declared rank of "constructor" reads as 1, so an easy bot challenges with half its base probability instead of throwing |
| BotEngine.Clamp | helpers/bot.js:336 | the result lies in [0.05, 0.95] and keeps any value already in that range |
| BotEngine.Resolve | helpers/bot.js:338 | only a failing table read gives an error; odds of 0 or less never challenge, odds of 1 or more always do |
| BotEngine.ChallengeOddsFacts | helpers/bot.js:252-343 | the bot never challenges its own play; the odds are a TypeError exactly when the level reads the declared rank's count (easy always, medium below four cards, hard unless the player is a habitual bluffer) and that read throws, as `ReadCount` defines it; an unknown level uses the base probability |
| BotEngine.HardOddsFacts | helpers/bot.js:289-338 | a player whose bluff ratio is above 0.6 is challenged with 1.5 times the base probability, with no clamp; for any other player, or one with no record, a claim beyond the copies the bot cannot see is always challenged, and any other claim gets a probability in [0.05, 0.95]; a count that reads `undefined` also gets a probability in [0.05, 0.95] |
| BotEngine.HardChallengesOverclaimOfUnflaggedPlayer | helpers/bot.js:289-325 | a player whose record has no bluff, which is every human since their plays are recorded without a bluff flag, is always challenged by a hard bot when they claim more copies than the bot cannot see |
| BotEngine.HardAlwaysChallengesHabitualBluffer | helpers/bot.js:289-302 | a hard bot always challenges a player whose bluff ratio is above 0.6 |
| BotEngine.EasyHalvesOddsWhenHoldingRank | helpers/bot.js:261-269 | whatever tallies it holds, an easy bot challenges with half the easy base probability when it holds the declared rank, and with the full base probability otherwise |
| BotEngine.LastTen | helpers/bot.js:70-75 | the window holds the last min(10, n) entries of the history |
| BotEngine.LastTenSlides | helpers/bot.js:70-75 | pushing an entry and shifting past ten keeps the window equal to the last ten entries |
| BotEngine.UpdatePatternsKeepsBalance | helpers/bot.js:78-105 | tallying keeps every tally balanced, the bot's own name untallied, and an easy or medium bot without tallies |
| BotEngine.Bot.constructor | helpers/bot.js:15-32 | a new bot has no cards, no history and no tallies, and has its level's odds |
| BotEngine.Bot.OrganizeCards | helpers/bot.js:56-62 | the table becomes the per-rank grouping of the hand |
| BotEngine.Bot.SetCards | helpers/bot.js:48-51 | the dealt hand replaces the hand, and the table is regrouped |
| BotEngine.Bot.AddCards | helpers/bot.js:242-245 | penalty cards go after the hand (multiset sum), and each rank's list grows by the added cards of that rank |
| BotEngine.Bot.RemoveCards | helpers/bot.js:223-236 | the hand loses the first matching card for each card removed, and the multiset loses exactly those cards; the table is regrouped from the new hand |
| BotEngine.Bot.RecordAction | helpers/bot.js:68-106 | the action joins the history, the window stays the last ten entries, and the tallies are updated; the bot stays consistent |
| BotEngine.Bot.GeneratePossibleMoves | helpers/bot.js:202-217 | the loop over the table's keys yields the candidates for the hand |
| BotEngine.Bot.DecidePlaceCards | helpers/bot.js:181-197 | plays as many cards from the front of the hand as the move's count (1 without one), declaring the move's rank or the first card's, a bluff exactly when they differ; those cards leave the hand and the table is regrouped from what is left |
| BotEngine.Bot.DecidePlayOrPass | helpers/bot.js:148-176 | the decision is that of the strategy on the current hand and history; history and tallies stay; a pass leaves the hand, a play removes its run from the front of the hand and regroups the table |
| BotEngine.Bot.DecideChallenge | helpers/bot.js:252-343 | the bot never challenges its own play; a TypeError comes only from a read that throws; once the bot has a table, a real rank or a name inherited from `Object.prototype` always gets a decision |
| Rooms.Pop | server.js:557-575 | up to `count` cards come off the top of both piles, top first; the rest stays; a bluff is caught exactly when a popped rank differs from the declared one |
| Rooms.MismatchAppend | server.js:566-568 | popping one more card flags a bluff exactly when it was flagged already or the card is off-rank |
| Rooms.PopSplitsPiles | server.js:561-575 | what remains, followed by the popped cards put back in order, is the piles as they were |
| Rooms.PopAfterPush | server.js:557-575 | popping as many cards as were just pushed takes exactly those back, and restores the piles |
| Rooms.RevealedMismatch | server.js:566-568 | a revealed play is a bluff exactly when one of its cards is not of the declared rank |
| Rooms.ChallengeRevealsLastPlay | server.js:557-575 | a challenge right after a play reveals exactly that play, restores the earlier piles, and succeeds exactly when a played card is off-rank |
| Rooms.Room.constructor | server.js:410-427 | the initial room record: empty piles and seats, no winners, turn -1, a new round, and a copy of the server deck |
| Rooms.Room.ScheduleBotTurn | server.js:98-110 | the bot's move is due exactly when the room has a bot and the bot holds the turn |
| Rooms.Room.ChangeTurn | helpers/game.js:3-39 | the skip loop and the award produce the won list and turn of AfterTurnChange; the room stays consistent |
| Rooms.Room.DistributeCards | server.js:756-785 | the deck is shuffled and dealt into one hand per seat; hands plus rest are a permutation of the deck; a full deck gives `52 / seats` each |
| Rooms.Room.StartGame | server.js:62-95 | the room deals the shuffled server deck, seat 0 gets the turn, and the bot gets its dealt hand with a table built for it, keeping its history and tallies; a bot without a seat is untouched; the bot (seat 1) never opens a game |
| Rooms.Room.Place | server.js:470-539 | the cards go on the piles; an emptied hand makes the turn's seat the pending winner; the first play of a round fixes the rank; the bot records the play in its history and tallies, with its hand and table unchanged; the challenge timers start |
| Rooms.Room.LayDown | server.js:476-494 | a human play goes on top of the piles with its count kept and the last challenge forgotten; an emptied hand makes the seat the pending winner; only the first play of a round fixes the declared rank |
| Rooms.Room.PutOnPiles | server.js:476-489 | the run goes on top of both piles, the count is kept, the challenge flags are reset, and an emptied hand sets the pending winner |
| Rooms.Room.RevealLastPlay | server.js:555-575 | the pop loop yields exactly `Pop` of the piles with the last play's count and the declared rank |
| Rooms.Room.Challenge | server.js:542-666 | a challenge of one's own play changes nothing; otherwise the room's side is that of `Contest`, the next turn is scheduled, and a bot whose play it was takes the revealed cards back when caught (its table rebuilt, else kept) and records the challenge in history and tallies; any other bot is untouched |
| Rooms.Room.Contest | server.js:555-648 | the play is revealed (the result is `Pop` of the piles); a caught bluff voids the pending win and gives the turn to the challenger; an honest play confirms the pending win and returns the turn; the piles and passes are cleared and a new round begins |
| Rooms.Room.BotHearsChallenge | server.js:584-626 | a caught bot takes the revealed cards back and has a table again; an uncaught one keeps hand and table; either way the challenge joins its history and tallies |
| Rooms.Room.ConcludeChallenge | server.js:579-648 | the turn goes to the challenger (bluff) or to the player, whose pending win is confirmed (honest); the piles and passes are cleared |
| Rooms.Room.RaiseTimeout | server.js:520-538 | a pending winner is recorded; if nobody challenged, the turn moves on as changeTurn decides and the bot's move is scheduled when it holds the turn |
| Rooms.Room.PassSeat | server.js:672-711 | when every seat that has not won has passed, the round is cleared and a new starter is due; otherwise the turn moves on |
| Rooms.Room.Pass | server.js:669-711 | the seat holding the turn passes, whoever sent the event |
| Rooms.Room.NewStarter | server.js:687-702 | with active seats, changeTurn runs from a seat drawn among the first `active`; otherwise nothing changes |
| Rooms.Room.NextTurnAfterChallenge | server.js:657-665 | the turn moves on from the seat the challenge gave it to |
| Rooms.Room.BotTurn | server.js:110-225 | the bot's decision is `Decide` on its hand and history; a play goes on the piles under the bot's declaration, leaves the tallies alone and keeps a table; a pass keeps hand, table and tallies and is handled as the bot seat's pass |
| Rooms.Room.BotPlays | server.js:119-177 | the bot's run goes on the piles, makes the bot the pending winner when its hand is empty, and is recorded in the history with the tallies unchanged |
| Rooms.Room.BotPasses | server.js:178-224 | the bot's pass is recorded with hand, table and tallies unchanged, and handled as any pass of seat 1 |
| Rooms.Room.BotChallenge | server.js:229-379 | there is no challenge without a bot, while the bot holds the turn, or before a play; otherwise the bot's verdict decides; a verdict that throws (the read of the declared rank's count, see `ReadCount`) crashes; a challenge reveals the play and leaves the bot's hand, table and tallies alone |
| Rooms.Room.BotChallengesPlay | server.js:248-376 | the challenge flag is set, the piles are popped, the caught flag tells whether a popped card is off-rank, and the challenge is recorded with the bot's hand, table and tallies unchanged; a caught bluff then gives the turn to the bot and clears the round, while an honest play crashes the callback with nothing else changed |
| Rooms.NewStarterHasNotWon | server.js:691-695 | the seat that opens a round after everyone passed has not won, unless every seat has |
| Server.OccupiedAppend | server.js:439-448 | pushing a socket takes one seat; pushing the bot's empty slot takes none |
| Server.OccupiedVacate | server.js:723-724 | emptying a seat that holds a socket frees exactly one seat |
| Server.OpeningSeated | server.js:437-450 | the first socket of a new room takes seat 0, and in a bot room the bot's slot follows and counts |
| Server.JoinKeepsSeated | server.js:437-440 | joining a room that has someone in it and a free seat keeps the count equal to the seats in use |
| Server.LeaveKeepsSeated | server.js:722-740 | the room is left without a human exactly when the count drops to 0, or to 1 in a bot room |
| Server.KeyedAdd | server.js:409-432 | filing a room record not filed before under a fresh id keeps every filed record named by its own id, so no record is filed twice |
| Server.NewSocketSeatsLast | server.js:455 | the position reported to a new socket is the seat it just took |
| Server.Without | server.js:729-730 | deleting an id keeps exactly the other ids |
| Server.WithoutIncreasing | server.js:729-738 | deleting an id keeps the rest in creation order |
| Server.FirstOpen | server.js:396-402 | the search returns a listed room that has someone in it and a free seat |
| Server.FirstOpenIsLeast | server.js:397-402 | over ids in increasing order, the search finds the least open id, and finds none only when no id is open |
| Server.FirstOpenIsOldest | server.js:397-402 | a new socket joins the oldest open room, and a room is created only when none is open |
| Server.RegisterConsistent | server.js:406-434 | filing a room under a fresh id keeps the dictionaries in agreement and the ids in creation order |
| Server.RemoveConsistent | server.js:729-738 | deleting a room from the three dictionaries keeps them in agreement |
| Server.Registry.constructor | server.js:46-51 | the server starts with no rooms, no counts and no bots |
| Server.Registry.FindRoom | server.js:396-402 | the loop over `Object.entries` finds the first listed room that has someone in it and a free seat |
| Server.Registry.CreateRoom | server.js:405-450 | a new room under a fresh id, with the server deck and its bot when asked for; the socket sits at seat 0; every room's count still equals its seats in use |
| Server.Registry.File | server.js:406-434 | the room is filed under the next id with its count, and a bot room gets a new bot of the asked level |
| Server.Registry.Register | server.js:409-432 | the room, its count and its bot are added under the next id, and the registry stays consistent |
| Server.Registry.NewBot | server.js:431 | a fresh consistent bot of the asked level, named Bot1, with no cards, no table, no history and no tallies |
| Server.Registry.Seat | server.js:437-450 | the socket takes the next seat of an open room and the count goes up by one (an open room already has its human, so the bot's slot is not pushed here); every room's count still equals its seats in use |
| Server.Registry.TakeSeat | server.js:439-448 | the push and the count update, with the bot's slot after the first human of a bot room |
| Server.Registry.Join | server.js:382-467 | joins the oldest open room, else creates one; the position is the socket's seat; startGame is due when two seats are taken before any game; every room's count still equals its seats in use |
| Server.Registry.Vacate | server.js:723-724 | the seat is emptied in place and the count drops by one, while the room keeps a human; its other fields and every count still match the seats |
| Server.Registry.EmptySeat | server.js:723 | only the leaving seat is emptied |
| Server.Registry.PassTurnOn | server.js:742-748 | changeTurn runs on the room, then the bot's move is scheduled when it holds the turn |
| Server.Registry.Disconnect | server.js:714-751 | a socket of a room that is gone, or with no seat in it, changes nothing; otherwise it departs from its first seat |
| Server.Registry.Depart | server.js:722-750 | the room is deleted exactly when no human is left in it (the count test at server.js:728 and :735 is shown to mean that); otherwise the count drops and the turn of a leaver who held it passes on |
| Server.Registry.Abandon | server.js:728-740 | the last human's seat is emptied and the room, count and bot are deleted; every remaining count still equals its seats |
| Server.Registry.Leave | server.js:723-749 | the seat is emptied and the count drops; a leaver who held the turn passes it on |
| Server.Registry.PassTurnIfHeld | server.js:742-749 | a leaver who held the turn passes it on as changeTurn decides, with the bot's move scheduled when it gets the turn; otherwise nothing changes |
| Server.Registry.SeatsRecounted | server.js:437-448 | changing only one room's seats and count, with the count matching its seats, keeps the registry consistent and every count matching |
| Server.Registry.SeatsFiled | server.js:405-450 | filing a new room whose count matches its seats keeps every count matching |
| Server.Registry.Abandoned | server.js:728-740 | deleting a room from the three dictionaries keeps the registry consistent and every other count matching |
| Server.Registry.Handle | server.js:469-471 | an event for a room that is gone does nothing; otherwise the room handles it and the registry stays consistent |
| Server.Registry.Fire | server.js:62-70 | a timer for a room that is gone does nothing; startGame first takes the newly shuffled server deck; only a bot challenge can crash |
| Server.RunEvent | server.js:469-711 | the place, challenge and pass handlers keep the room and its bot consistent |
| Server.RunTimer | server.js:229-379 | every timer callback keeps the room and its bot consistent, and only the bot's challenge can crash |

## Left out

- Socket.IO emits, `console.log`, the HTTP routes and the views: these are I/O, and the model keeps only the state they report.
- Timing: the delays (1 s, 1 to 4 s, 2 s, 3 s, 5 s, 15 s) and their interleaving are not modelled. Each scheduled callback is a `Timer` value that the caller fires, in any order it chooses.
- The 3 s timer that only emits `STOC-PLAY-OVER` after a challenge changes no state, and is not modelled.
- Rooms.Room.Challenge: the bot takes back the cards and records the challenge after the room's verdict (server.js:579-648), not between the reveal and the verdict as the code does (server.js:585-626). The bot's step reads only the revealed cards and the caught flag, and the verdict changes neither. The two steps touch disjoint state, so the order of the two updates is not modelled.
- BotEngine.LoadStrategy: helpers/bot.js:7-9 loads the strategies with `require('./strategies/…')`, which resolves to helpers/strategies/, but the strategy files sit in helpers/bot/strategies/. As written, `require('./helpers/bot')` at server.js:10 therefore fails when the server starts, and no room ever gets a bot. The model assumes the path points at helpers/bot/strategies/, the files the three strategies are modelled from.
- BotEngine.ReadCount: a declared rank is a string or absent. The client may send any JSON value as `bluff_text` (server.js:491-494), and a non-string key is not modelled. Of `Object.prototype`, the model knows the eleven methods and `__proto__` that ECMAScript defines; properties added by a host or by other code are not modelled.
- helpers/deck is not part of this model. The deck that `CardDeck.shuffle()` produces is a parameter (`Chance.shuffledDeck`).
- Room ids are consecutive numbers, not `uuidv4()` strings. Only their uniqueness and creation order matter to the code.
- Each socket's handlers hold the `roomId` of the connection that created them. The model takes that id as a parameter and does not track which socket belongs to which room.
- Floating-point arithmetic: probabilities and draws are exact reals, so rounding of the `Math.random() * n` products is not captured.
- JavaScript's keying of `bluffHistory` by move object (every key is the string "[object Object]") is modelled as a map keyed by the move itself. Nothing in the game writes to it, so lookups always miss in both.
- An exception thrown inside a callback ends the server process. The model ends the callback with outcome `Crashed` and leaves what happens to the process to the caller.
- Strategies.FindPattern: compares moves by value. At helpers/bot/strategies/hardStrategy.js:11 and :18 the source compares move objects with `===`, which is identity, so a newly generated candidate never equals a stored counter-move and the counter branch cannot fire there. The bot also never passes `opponentBluffPatterns`, so the model's bot sees an empty list and the branch is unused in the game as well.
- Strategies.HardMove: plays a recognised counter by value, for the same reason as `Strategies.FindPattern`.
- A room's `clients` array can grow past four entries when sockets leave and others join, because a vacated seat is never reused. The model reproduces this; it does not bound the array.
- Server.Registry.Handle: states only that the registry stays consistent and that a gone room is a no-op. What each event does is stated by `Rooms.Room.Place`, `Rooms.Room.Challenge` and `Rooms.Room.Pass`.
- Server.Registry.Fire: states only the no-op, the deck update and consistency. What each callback does is stated by the `Rooms.Room` method it runs.
- Server.RunEvent: states only consistency, for the same reason.
- Server.RunTimer: states only consistency and where a crash can come from, for the same reason.
- Server.Registry.CreateRoom: does not restate that the new bot has an empty hand and history. `Server.Registry.NewBot` states it.
- Server.Registry.CreateRoom: seats the socket before filing the room under its id. Nothing runs in between, so the resulting state is the same.

=== FILE: basics.dfy ===
/** Values shared by the whole model: cards, the rank tables, and the handful of
    JavaScript number operations the game code relies on. */
module Basics {

  datatype Option<T> = None | Some(value: T)

  /** A card as the server handles it: its rank (`value`, "A", "2", ..., "K") and its suit. */
  datatype Card = Card(value: string, suit: string)

  /** The thirteen ranks, in the order the bot inserts them into its per-rank table. */
  const CARD_VALUES: seq<string> :=
    ["A", "2", "3", "4", "5", "6", "7", "8", "9", "10", "J", "Q", "K"]

  /** The order in which JavaScript enumerates the keys of an object built by inserting
      CARD_VALUES: keys that look like array indices first, ascending, then the other
      keys in insertion order. */
  const KEY_ORDER: seq<string> :=
    ["2", "3", "4", "5", "6", "7", "8", "9", "10", "A", "J", "Q", "K"]

  /** JavaScript's `%`, which truncates toward zero (Dafny's `%` never returns a negative value). */
  function JsRem(a: int, n: int): (r: int)
    requires n > 0
    ensures a >= 0 ==> 0 <= r < n
    ensures a < 0 ==> -n < r <= 0
    ensures 0 <= a < n ==> r == a
    ensures a == n ==> r == 0
  {
    if a >= 0 then
      ModOfSmall(a, n);
      a % n
    else -((-a) % n)
  }

  lemma ModOfSmall(a: int, n: int)
    requires n > 0 && a >= 0
    ensures 0 <= a < n ==> a % n == a
    ensures a == n ==> a % n == 0
  {
  }

  /** `Math.floor(draw * len)` for a draw `0 <= draw < 1` standing for `Math.random()`. */
  function ScaledIndex(draw: real, len: nat): (k: nat)
    requires 0.0 <= draw < 1.0
    ensures len > 0 ==> k < len
    ensures len == 0 ==> k == 0
  {
    assert 0.0 <= draw * len as real <= len as real by {
      assert draw * len as real <= 1.0 * len as real;
    }
    assert len > 0 ==> draw * len as real < len as real by {
      if len > 0 {
        assert (1.0 - draw) * len as real > 0.0;
      }
    }
    (draw * len as real).Floor
  }

  /** The character of decimal digit `d`. */
  function DigitChar(d: nat): (c: char)
    requires d < 10
    ensures '0' <= c <= '9' && DigitValue(c) == d
  {
    ('0' as int + d) as char
  }

  /** The value of a decimal digit character. */
  function DigitValue(c: char): int {
    c as int - '0' as int
  }

  /** Every character of `s` is a decimal digit. */
  predicate IsDigits(s: string) {
    forall i :: 0 <= i < |s| ==> '0' <= s[i] <= '9'
  }

  /** The number a string of decimal digits denotes, most significant digit first. */
  function ValueOf(s: string): int
    decreases |s|
  {
    if |s| == 0 then 0 else ValueOf(s[..|s| - 1]) * 10 + DigitValue(s[|s| - 1])
  }

  /** Decimal rendering of a natural number, as a template literal prints it: digits only,
      no leading zero, denoting `n`. */
  function NatToString(n: nat): (s: string)
    ensures |s| > 0 && IsDigits(s) && ValueOf(s) == n
    ensures |s| == 1 || s[0] != '0'
    decreases n
  {
    if n < 10 then [DigitChar(n)]
    else
      var prefix := NatToString(n / 10);
      var s := prefix + [DigitChar(n % 10)];
      assert s[..|s| - 1] == prefix;
      assert |prefix| == 1 ==> ValueOf(prefix) == DigitValue(prefix[0]) by {
        if |prefix| == 1 {
          assert prefix[..0] == [];
        }
      }
      s
  }

  /** Distinct numbers are rendered differently. */
  lemma NatToStringInjective(m: nat, n: nat)
    ensures NatToString(m) == NatToString(n) <==> m == n
  {
  }

  /** The label `Player ${position + 1}` the server gives the seat at `position`
      (`position` is -1 for a socket that is not seated). */
  function PlayerLabel(position: int): (s: string)
    requires position >= -1
    ensures |s| > 7 && s[..7] == "Player " && s[7..] == NatToString(position + 1)
  {
    "Player " + NatToString(position + 1)
  }

  /** Two seats share a label only when they are the same seat. */
  lemma PlayerLabelInjective(p: int, q: int)
    requires p >= -1 && q >= -1
    ensures PlayerLabel(p) == PlayerLabel(q) <==> p == q
  {
    if PlayerLabel(p) == PlayerLabel(q) {
      assert NatToString(p + 1) == PlayerLabel(p)[7..] == PlayerLabel(q)[7..] == NatToString(q + 1);
      NatToStringInjective(p + 1, q + 1);
    }
  }

  /** `a` is `b` with some elements dropped and the rest in their order. */
  predicate Subsequence<T(==)>(a: seq<T>, b: seq<T>)
    decreases |b|
  {
    if |a| == 0 then true
    else if |b| == 0 then false
    else if a[0] == b[0] then Subsequence(a[1..], b[1..])
    else Subsequence(a, b[1..])
  }

  /** The first position of `x` in `s`, or -1: JavaScript's `indexOf`. */
  function IndexOf<T(==)>(s: seq<T>, x: T): (i: int)
    ensures -1 <= i < |s|
    ensures i == -1 <==> x !in s
    ensures i >= 0 ==> s[i] == x && x !in s[..i]
  {
    if |s| == 0 then -1
    else if s[0] == x then 0
    else
      var j := IndexOf(s[1..], x);
      assert s[1..][..if j >= 0 then j else 0] == s[1..if j >= 0 then j + 1 else 1];
      if j == -1 then -1 else j + 1
  }

  function Min(a: int, b: int): int {
    if a <= b then a else b
  }
}

=== FILE: bot.dfy ===
/** The computer player of helpers/bot.js: its hand and per-rank table, its action
    history and the per-player tallies of the hard level, the candidate moves it offers its
    strategy, and its place, pass and challenge decisions. Every `Math.random()` value is a
    parameter in [0, 1). */
module BotEngine {
  import opened Basics
  import opened Moves
  import opened Strategies

  // ---------------------------------------------------------------- levels

  /** The strategy module a difficulty name selects. */
  datatype StrategyKind = EasyKind | MediumKind | HardKind

  /** loadStrategy: "easy" and "hard" select their own module; every other name, "medium"
      included, selects the medium one. */
  function LoadStrategy(difficulty: string): (s: StrategyKind)
    ensures s == EasyKind <==> difficulty == "easy"
    ensures s == HardKind <==> difficulty == "hard"
  {
    if difficulty == "easy" then EasyKind
    else if difficulty == "hard" then HardKind
    else MediumKind
  }

  /** getBluffProbability. */
  function BluffProbability(difficulty: string): (p: real)
    ensures 0.0 < p < 1.0
  {
    if difficulty == "easy" then 0.3
    else if difficulty == "medium" then 0.5
    else if difficulty == "hard" then 0.7
    else 0.5
  }

  /** getChallengeProbability. */
  function ChallengeProbability(difficulty: string): (p: real)
    ensures 0.0 < p < 1.0
  {
    if difficulty == "easy" then 0.25
    else if difficulty == "medium" then 0.5
    else if difficulty == "hard" then 0.7
    else 0.5
  }

  /** The higher the level, the more the bot bluffs and the more it challenges. */
  lemma HarderLevelsBluffAndChallengeMore()
    ensures BluffProbability("easy") < BluffProbability("medium") < BluffProbability("hard")
    ensures ChallengeProbability("easy") < ChallengeProbability("medium") < ChallengeProbability("hard")
  {
  }

  /** An unrecognised level name plays with the medium strategy and the medium odds. */
  lemma UnknownLevelPlaysLikeMedium(difficulty: string)
    requires difficulty != "easy" && difficulty != "medium" && difficulty != "hard"
    ensures LoadStrategy(difficulty) == LoadStrategy("medium")
    ensures BluffProbability(difficulty) == BluffProbability("medium")
    ensures ChallengeProbability(difficulty) == ChallengeProbability("medium")
  {
  }

  /** `strategy.makeMove(gameState, personality, memory)` for the selected module. */
  function MakeMove(kind: StrategyKind, view: GameView, bluffFrequency: real, memory: Memory,
                    draw: real, pick: real): (r: Option<Move>)
    requires 0.0 <= draw < 1.0 && 0.0 <= pick < 1.0
    ensures r.Some? ==> r.value in view.possibleMoves || r.value in view.previousMoves
  {
    match kind
    case EasyKind => EasyMove(view, bluffFrequency, draw, pick)
    case MediumKind => MediumMove(view, bluffFrequency, draw, pick)
    case HardKind => HardMove(view, bluffFrequency, memory, draw, pick)
  }

  // ---------------------------------------------------------------- tallies

  /** The hard level's record of one opponent. */
  datatype PlayerPattern = PlayerPattern(
    bluffCount: nat, honestCount: nat, totalPlays: nat,
    successfulChallenges: nat, failedChallenges: nat)

  const NEW_PATTERN := PlayerPattern(0, 0, 0, 0, 0)

  /** Every counted play is either a bluff or honest. */
  ghost predicate Balanced(p: PlayerPattern) {
    p.bluffCount + p.honestCount == p.totalPlays
  }

  /** The tally update of recordAction for one action by the tallied player: a play counts
      once, as a bluff or as honest; a challenge counts once, as successful or failed. */
  function Tally(p: PlayerPattern, a: Action): (q: PlayerPattern)
    ensures Balanced(p) ==> Balanced(q)
    ensures a.PlaceAction? ==> (q.totalPlays == p.totalPlays + 1 &&
      if a.wasBluff then q.bluffCount == p.bluffCount + 1 && q.honestCount == p.honestCount
      else q.honestCount == p.honestCount + 1 && q.bluffCount == p.bluffCount)
    ensures !a.PlaceAction? ==> q.totalPlays == p.totalPlays && q.bluffCount == p.bluffCount
    ensures a.ChallengeAction? ==>
      q.successfulChallenges + q.failedChallenges == p.successfulChallenges + p.failedChallenges + 1
    ensures !a.ChallengeAction? ==>
      q.successfulChallenges == p.successfulChallenges && q.failedChallenges == p.failedChallenges
  {
    match a
    case PlaceAction(_, _, _, wasBluff) =>
      if wasBluff then p.(totalPlays := p.totalPlays + 1, bluffCount := p.bluffCount + 1)
      else p.(totalPlays := p.totalPlays + 1, honestCount := p.honestCount + 1)
    case ChallengeAction(_, _, wasSuccessful) =>
      if wasSuccessful then p.(successfulChallenges := p.successfulChallenges + 1)
      else p.(failedChallenges := p.failedChallenges + 1)
    case _ => p
  }

  /** The pattern part of recordAction: only a hard bot keeps tallies, and never of itself. */
  function UpdatePatterns(patterns: map<string, PlayerPattern>, difficulty: string, name: string, a: Action)
    : (r: map<string, PlayerPattern>)
    ensures difficulty != "hard" || a.player == name ==> r == patterns
    ensures difficulty == "hard" && a.player != name ==>
      r.Keys == patterns.Keys + {a.player} &&
      r[a.player] == Tally(if a.player in patterns then patterns[a.player] else NEW_PATTERN, a) &&
      forall p :: p in patterns && p != a.player ==> r[p] == patterns[p]
  {
    if difficulty == "hard" && a.player != name then
      var old_ := if a.player in patterns then patterns[a.player] else NEW_PATTERN;
      patterns[a.player := Tally(old_, a)]
    else patterns
  }

  /** `bluffCount / totalPlays`, 0 before the first counted play. */
  function BluffRatio(p: PlayerPattern): (r: real)
    ensures Balanced(p) ==> 0.0 <= r <= 1.0
  {
    if p.totalPlays > 0 then p.bluffCount as real / p.totalPlays as real else 0.0
  }

  /** A human's recorded play carries no bluff flag, so tallying only such plays never
      raises a player's bluff ratio above 0. */
  lemma {:induction false} UnflaggedPlaysNeverRaiseRatio(p: PlayerPattern, actions: seq<Action>)
    requires p.bluffCount == 0
    requires forall i :: 0 <= i < |actions| ==> !(actions[i].PlaceAction? && actions[i].wasBluff)
    ensures TallyAll(p, actions).bluffCount == 0 && BluffRatio(TallyAll(p, actions)) == 0.0
    decreases |actions|
  {
    if |actions| > 0 {
      UnflaggedPlaysNeverRaiseRatio(Tally(p, actions[0]), actions[1..]);
    }
  }

  /** Tally a sequence of actions, oldest first. */
  function TallyAll(p: PlayerPattern, actions: seq<Action>): PlayerPattern
    decreases |actions|
  {
    if |actions| == 0 then p else TallyAll(Tally(p, actions[0]), actions[1..])
  }

  // ---------------------------------------------------------------- hand

  /** `cards.filter(card => card.value === v)`. */
  function CardsOfValue(cards: seq<Card>, v: string): (r: seq<Card>)
    ensures |r| <= |cards|
    ensures forall c :: c in r <==> c in cards && c.value == v
  {
    if |cards| == 0 then []
    else
      var rest := CardsOfValue(cards[1..], v);
      assert forall c :: c in cards <==> c == cards[0] || c in cards[1..];
      if cards[0].value == v then [cards[0]] + rest else rest
  }

  /** The filter keeps every card of rank `v` as often as the hand holds it, drops every
      other card, and keeps the hand's order. */
  lemma {:induction false} CardsOfValueKeepsCopiesInOrder(cards: seq<Card>, v: string)
    ensures forall c :: multiset(CardsOfValue(cards, v))[c] == if c.value == v then multiset(cards)[c] else 0
    ensures Subsequence(CardsOfValue(cards, v), cards)
    decreases |cards|
  {
    if |cards| > 0 {
      var rest := CardsOfValue(cards[1..], v);
      CardsOfValueKeepsCopiesInOrder(cards[1..], v);
      assert cards == [cards[0]] + cards[1..];
      assert multiset(cards) == multiset([cards[0]]) + multiset(cards[1..]);
      if cards[0].value == v {
        assert CardsOfValue(cards, v)[1..] == rest;
      } else if |rest| > 0 {
        assert rest[0] in rest;
      }
    }
  }

  /** Filtering distributes over concatenation of hands. */
  lemma {:induction false} CardsOfValueAppend(a: seq<Card>, b: seq<Card>, v: string)
    ensures CardsOfValue(a + b, v) == CardsOfValue(a, v) + CardsOfValue(b, v)
    decreases |a|
  {
    if |a| > 0 {
      assert (a + b)[1..] == a[1..] + b;
      CardsOfValueAppend(a[1..], b, v);
    } else {
      assert a + b == b;
    }
  }

  /** The table organizeCards builds: each rank of CARD_VALUES to the cards of that rank. */
  function GroupByValue(cards: seq<Card>): (m: map<string, seq<Card>>)
    ensures m.Keys == set v | v in CARD_VALUES
    ensures forall v :: v in m ==> forall c :: c in m[v] <==> c in cards && c.value == v
  {
    Table(cards, CARD_VALUES)
  }

  /** Each rank's entry holds every card of that rank as often as the hand holds it, and
      no other card, in the hand's order. */
  lemma GroupByValueKeepsCopiesInOrder(cards: seq<Card>)
    ensures var m := GroupByValue(cards);
      forall v :: v in m ==>
        && (forall c :: multiset(m[v])[c] == if c.value == v then multiset(cards)[c] else 0)
        && Subsequence(m[v], cards)
  {
    forall v | v in CARD_VALUES {
      CardsOfValueKeepsCopiesInOrder(cards, v);
    }
  }

  /** Each rank of `keys` to the cards of that rank. */
  function Table(cards: seq<Card>, keys: seq<string>): map<string, seq<Card>> {
    map v | v in keys :: CardsOfValue(cards, v)
  }

  /** The loop of organizeCards over the ranks `keys`: each rank to the cards of that rank. */
  method TableOf(cards: seq<Card>, keys: seq<string>) returns (table: map<string, seq<Card>>)
    ensures table == Table(cards, keys)
  {
    table := map[];
    var i := 0;
    while i < |keys|
      invariant 0 <= i <= |keys|
      invariant table == Table(cards, keys[..i])
    {
      assert keys[..i + 1] == keys[..i] + [keys[i]];
      table := table[keys[i] := CardsOfValue(cards, keys[i])];
      i := i + 1;
    }
    assert keys[..i] == keys;
  }

  /** The place candidates for the ranks of `keys` that the hand holds, in key order: one per
      rank, for all cards of that rank. */
  function PlacesFor(cards: seq<Card>, keys: seq<string>): seq<Move>
    decreases |keys|
  {
    if |keys| == 0 then []
    else
      var v := keys[|keys| - 1];
      var n := |CardsOfValue(cards, v)|;
      PlacesFor(cards, keys[..|keys| - 1]) + (if n > 0 then [Place(v, n, false)] else [])
  }

  /** generatePossibleMoves for a hand: the ranks in the order JavaScript enumerates the
      table's keys, then a pass. */
  function PossibleMoves(cards: seq<Card>): seq<Move> {
    PlacesFor(cards, KEY_ORDER) + [Pass]
  }

  /** A candidate for a rank exists exactly when the hand holds that rank, and then it plays
      every card of the rank; no candidate is flagged safe. */
  lemma {:induction false} PlacesForFacts(cards: seq<Card>, keys: seq<string>)
    ensures forall m :: m in PlacesFor(cards, keys) ==>
      m.Place? && m.value in keys && m.count == |CardsOfValue(cards, m.value)| > 0 && !m.isSafe
    ensures forall v :: v in keys && |CardsOfValue(cards, v)| > 0 ==>
      Place(v, |CardsOfValue(cards, v)|, false) in PlacesFor(cards, keys)
    decreases |keys|
  {
    if |keys| > 0 {
      var init := keys[..|keys| - 1];
      PlacesForFacts(cards, init);
      assert keys == init + [keys[|keys| - 1]];
      assert forall v :: v in keys <==> v in init || v == keys[|keys| - 1];
    }
  }

  lemma KeyOrderListsEveryRank()
    ensures forall v :: v in KEY_ORDER <==> v in CARD_VALUES
  {
  }

  /** The candidates are: one place per held rank of CARD_VALUES, playing all cards of that
      rank, and a final pass; none is safe, so the hard strategy's safe fallback never
      applies. */
  lemma PossibleMovesFacts(cards: seq<Card>)
    ensures |PossibleMoves(cards)| > 0 && PossibleMoves(cards)[|PossibleMoves(cards)| - 1] == Pass
    ensures forall v :: v in CARD_VALUES ==>
      (|CardsOfValue(cards, v)| > 0 <==> Place(v, |CardsOfValue(cards, v)|, false) in PossibleMoves(cards))
    ensures forall m :: m in PossibleMoves(cards) && m != Pass ==>
      m.Place? && m.value in CARD_VALUES && m.count == |CardsOfValue(cards, m.value)| > 0
    ensures FirstSafe(PossibleMoves(cards)).None?
  {
    KeyOrderListsEveryRank();
    PlacesForFacts(cards, KEY_ORDER);
  }

  /** `cards.findIndex(same value and suit)` followed by `splice(index, 1)` when found. */
  function RemoveFirst(hand: seq<Card>, c: Card): seq<Card> {
    var i := IndexOf(hand, c);
    if i == -1 then hand else hand[..i] + hand[i + 1..]
  }

  /** removeCards: one RemoveFirst per card to remove, in order. */
  function RemoveEach(hand: seq<Card>, toRemove: seq<Card>): seq<Card>
    decreases |toRemove|
  {
    if |toRemove| == 0 then hand else RemoveEach(RemoveFirst(hand, toRemove[0]), toRemove[1..])
  }

  lemma RemoveFirstMultiset(hand: seq<Card>, c: Card)
    ensures multiset(RemoveFirst(hand, c)) == multiset(hand) - multiset{c}
  {
    var i := IndexOf(hand, c);
    if i != -1 {
      assert hand == hand[..i] + [c] + hand[i + 1..];
    }
  }

  /** Removing takes away exactly the cards to remove that the hand holds: the hand's
      multiset minus theirs. */
  lemma {:induction false} RemoveEachMultiset(hand: seq<Card>, toRemove: seq<Card>)
    ensures multiset(RemoveEach(hand, toRemove)) == multiset(hand) - multiset(toRemove)
    decreases |toRemove|
  {
    if |toRemove| > 0 {
      var c, rest := toRemove[0], toRemove[1..];
      RemoveFirstMultiset(hand, c);
      RemoveEachMultiset(RemoveFirst(hand, c), rest);
      assert toRemove == [c] + rest;
      assert multiset(toRemove) == multiset{c} + multiset(rest);
      assert RemoveEach(hand, toRemove) == RemoveEach(RemoveFirst(hand, c), rest);
      assert multiset(RemoveEach(hand, toRemove)) == (multiset(hand) - multiset{c}) - multiset(rest);
    }
  }

  /** The first card of a hand is found at index 0. */
  lemma RemoveFirstHead(hand: seq<Card>)
    requires |hand| > 0
    ensures RemoveFirst(hand, hand[0]) == hand[1..]
  {
    assert IndexOf(hand, hand[0]) == 0;
  }

  /** Removing the first `k` cards of the hand leaves the rest of it, in order. */
  lemma {:induction false} RemoveEachPrefix(hand: seq<Card>, k: nat)
    requires k <= |hand|
    ensures RemoveEach(hand, hand[..k]) == hand[k..]
    decreases k
  {
    if k > 0 {
      var prefix, tail := hand[..k], hand[1..];
      RemoveFirstHead(hand);
      assert prefix[0] == hand[0] && prefix[1..] == tail[..k - 1];
      RemoveEachPrefix(tail, k - 1);
      calc {
        RemoveEach(hand, prefix);
        RemoveEach(RemoveFirst(hand, hand[0]), prefix[1..]);
        RemoveEach(tail, tail[..k - 1]);
        tail[k - 1..];
        { assert tail[k - 1..] == hand[k..]; }
        hand[k..];
      }
    }
  }

  // ---------------------------------------------------------------- placing

  /** What decidePlayOrPass returns. */
  datatype Decision = PassDecision | PlaceDecision(cards: seq<Card>, declaredValue: string, isBluff: bool)

  /** `chosenAction.count || 1`: a recorded action has no `count`. */
  function PlaceCount(m: Move): (n: nat)
    ensures n > 0
  {
    if m.Place? && m.count > 0 then m.count else 1
  }

  /** `chosenAction.value || cardsToPlay[0].value`: a recorded action has no `value`. */
  function DeclaredValue(m: Move, first: Card): string {
    if m.Place? && m.value != "" then m.value else first.value
  }

  /** The history handed to the strategy as `previousMoves`. */
  function AsMoves(history: seq<Action>): (r: seq<Move>)
    ensures |r| == |history| && forall i :: 0 <= i < |r| ==> r[i] == Recorded(history[i])
  {
    if |history| == 0 then [] else AsMoves(history[..|history| - 1]) + [Recorded(history[|history| - 1])]
  }

  /** decidePlayOrPass followed by decidePlaceCards: pass with an empty hand or when the
      strategy offers nothing or a pass; otherwise play the first `count || 1` cards of
      the hand and declare the move's rank, or the first card's rank. */
  function Decide(kind: StrategyKind, bluffFrequency: real, memory: Memory, history: seq<Action>,
                  cards: seq<Card>, draw: real, pick: real): Decision
    requires 0.0 <= draw < 1.0 && 0.0 <= pick < 1.0
  {
    if |cards| == 0 then PassDecision
    else
      var view := GameView(PossibleMoves(cards), AsMoves(history), |cards|, []);
      var chosen := MakeMove(kind, view, bluffFrequency, memory, draw, pick);
      if chosen.None? || IsPassMove(chosen.value) then PassDecision
      else
        var played := cards[..Min(PlaceCount(chosen.value), |cards|)];
        var declared := DeclaredValue(chosen.value, played[0]);
        PlaceDecision(played, declared, declared != played[0].value)
  }

  /** A play is a non-empty run from the front of the hand, and it is a bluff exactly when
      its declared rank differs from the rank of its first card (the other cards are not
      looked at). */
  lemma DecideFacts(kind: StrategyKind, bluffFrequency: real, memory: Memory, history: seq<Action>,
                    cards: seq<Card>, draw: real, pick: real)
    requires 0.0 <= draw < 1.0 && 0.0 <= pick < 1.0
    ensures var d := Decide(kind, bluffFrequency, memory, history, cards, draw, pick);
      d.PlaceDecision? ==>
        0 < |d.cards| <= |cards| && d.cards == cards[..|d.cards|] &&
        (d.isBluff <==> d.declaredValue != cards[0].value)
    ensures |cards| == 0 ==> Decide(kind, bluffFrequency, memory, history, cards, draw, pick) == PassDecision
  {
  }

  /** When a strategy plays one of the generated candidates, the bot declares that rank and
      plays as many cards as it holds of it, taken from the front of the hand. */
  lemma DecideCandidate(kind: StrategyKind, bluffFrequency: real, memory: Memory, history: seq<Action>,
                        cards: seq<Card>, draw: real, pick: real, v: string)
    requires 0.0 <= draw < 1.0 && 0.0 <= pick < 1.0 && |cards| > 0
    requires MakeMove(kind, GameView(PossibleMoves(cards), AsMoves(history), |cards|, []),
                      bluffFrequency, memory, draw, pick) == Some(Place(v, |CardsOfValue(cards, v)|, false))
    requires Place(v, |CardsOfValue(cards, v)|, false) in PossibleMoves(cards)
    ensures var d := Decide(kind, bluffFrequency, memory, history, cards, draw, pick);
      d.PlaceDecision? && d.declaredValue == v && v in CARD_VALUES &&
      |d.cards| == |CardsOfValue(cards, v)| > 0
  {
    PlaceCandidate(cards, Place(v, |CardsOfValue(cards, v)|, false));
  }

  /** A place candidate plays all cards of one held rank of CARD_VALUES. */
  lemma PlaceCandidate(cards: seq<Card>, m: Move)
    requires m in PossibleMoves(cards) && m != Pass
    ensures m.Place? && m.value in CARD_VALUES && m.value != ""
    ensures 0 < m.count == |CardsOfValue(cards, m.value)| <= |cards|
  {
    PossibleMovesFacts(cards);
  }

  /** An easy bot that does not draw a bluff and has any history replays its oldest
      recorded action: it plays its first card alone, under that card's own rank, so honestly. */
  lemma EasyBotWithHistoryPlaysHonestly(bluffFrequency: real, memory: Memory, history: seq<Action>,
                                        cards: seq<Card>, draw: real, pick: real)
    requires 0.0 <= draw < 1.0 && 0.0 <= pick < 1.0
    requires |cards| > 0 && |history| > 0 && draw >= bluffFrequency && !history[0].PassAction?
    ensures Decide(EasyKind, bluffFrequency, memory, history, cards, draw, pick)
         == PlaceDecision(cards[..1], cards[0].value, false)
  {
  }

  // ---------------------------------------------------------------- challenging

  /** The play the bot is asked about: declared rank (absent before any declaration), card
      count, and the player's label. */
  datatype Play = Play(declaredValue: Option<string>, cardCount: nat, player: string)

  /** How decideChallenge answers: never, always, with probability `p`, or with a
      TypeError from reading the count of the declared rank. */
  datatype Odds = Never | Always | Chance(p: real) | Throws

  /** What `cardsByValue[declaredValue].length` yields: a number, `undefined`, or a
      TypeError. */
  datatype TableRead = Count(n: nat) | Undefined | Unreadable

  /** The methods every plain object inherits from `Object.prototype`, each with its
      `length` (the number of declared parameters), as ECMAScript defines them. */
  const INHERITED_METHODS: map<string, nat> :=
    map["constructor" := 1, "hasOwnProperty" := 1, "isPrototypeOf" := 1,
        "propertyIsEnumerable" := 1, "toLocaleString" := 0, "toString" := 0, "valueOf" := 0,
        "__defineGetter__" := 2, "__defineSetter__" := 2, "__lookupGetter__" := 1,
        "__lookupSetter__" := 1]

  /** A key that a plain object answers from `Object.prototype` when it lacks it. */
  predicate Inherited(key: string) {
    key in INHERITED_METHODS || key == "__proto__"
  }

  /** `cardsByValue[declaredValue].length` on the table object. Before any table the read
      throws. An absent declaration is the key "undefined". A key of the table gives the
      length of its list. An inherited method gives that function's `length`. `__proto__`
      gives `Object.prototype`, whose `length` is `undefined`. Any other key gives
      `undefined`, whose `length` throws. */
  function ReadCount(byValue: Option<map<string, seq<Card>>>, v: Option<string>): (r: TableRead)
    ensures r.Unreadable? <==>
      byValue.None? || (var key := if v.Some? then v.value else "undefined";
                        key !in byValue.value && !Inherited(key))
  {
    var key := if v.Some? then v.value else "undefined";
    if byValue.None? then Unreadable
    else if key in byValue.value then Count(|byValue.value[key]|)
    else if key in INHERITED_METHODS then Count(INHERITED_METHODS[key])
    else if key == "__proto__" then Undefined
    else Unreadable
  }

  /** On a table the bot built, a rank reads as the number of cards of that rank it holds,
      and an inherited name reads without throwing. */
  lemma ReadCountOnTable(cards: seq<Card>, v: Option<string>)
    ensures v.Some? && v.value in CARD_VALUES ==>
      ReadCount(Some(GroupByValue(cards)), v) == Count(|CardsOfValue(cards, v.value)|)
    ensures v.Some? && Inherited(v.value) ==> !ReadCount(Some(GroupByValue(cards)), v).Unreadable?
    ensures v.Some? && v.value == "__proto__" ==> ReadCount(Some(GroupByValue(cards)), v) == Undefined
  {
    var m := GroupByValue(cards);
    if v.Some? && v.value in CARD_VALUES {
      assert m == Table(cards, CARD_VALUES);
    }
    if v.Some? && Inherited(v.value) {
      InheritedIsNoRank(v.value);
      assert v.value !in m.Keys;
    }
  }

  /** A declared rank of "constructor" reads as `Object.length`, which is 1: an easy bot
      takes it for a rank it holds and halves its odds, without throwing. */
  lemma EasyReadsConstructorAsHeld(name: string, patterns: map<string, PlayerPattern>, cards: seq<Card>,
                                   cardCount: nat, player: string)
    requires player != name
    ensures ChallengeOdds("easy", name, ChallengeProbability("easy"), patterns, Some(GroupByValue(cards)),
                          Play(Some("constructor"), cardCount, player))
         == Chance(ChallengeProbability("easy") * 0.5)
  {
    ReadCountOnTable(cards, Some("constructor"));
  }

  /** No inherited name is a rank: each is longer than any rank. */
  lemma InheritedIsNoRank(key: string)
    requires Inherited(key)
    ensures key !in CARD_VALUES
  {
    assert |key| > 2;
    assert forall r :: r in CARD_VALUES ==> |r| <= 2;
  }

  /** `Math.min(0.95, Math.max(0.05, p))`. */
  function Clamp(p: real): (r: real)
    ensures 0.05 <= r <= 0.95
    ensures 0.05 <= p <= 0.95 ==> r == p
  {
    if p < 0.05 then 0.05 else if p > 0.95 then 0.95 else p
  }

  /** The hard level's odds: a player whose recorded bluff ratio exceeds 0.6 is challenged
      with 1.5 times the base probability; otherwise claims beyond the copies the bot cannot
      see are always challenged, and the rest get a probability adjusted by the share of
      unseen copies claimed, the bot's own count and the play's size, kept in [0.05, 0.95]. */
  function HardOdds(challengeProbability: real, pattern: Option<PlayerPattern>, own: TableRead,
                    cardCount: nat): Odds
  {
    if pattern.Some? && BluffRatio(pattern.value) > 0.6 then Chance(challengeProbability * 1.5)
    else if own.Unreadable? then Throws
    else if own.Undefined? then
      // `4 - undefined` is NaN: every comparison with it, or with the count, is false, and
      // only the size of the play adjusts the probability.
      Chance(Clamp(challengeProbability + (if cardCount >= 3 then 0.1 * cardCount as real else 0.0)))
    else
      var ourCount := own.n;
      var totalAvailable := 4 - ourCount;
      if cardCount > totalAvailable then Always
      else
        var proportion := if totalAvailable > 0 then cardCount as real / totalAvailable as real else 0.0;
        var p1 := challengeProbability + (if proportion > 0.5 then proportion * 0.4 else 0.0);
        var p2 := p1 - (if ourCount >= 2 then 0.1 * ourCount as real else 0.0);
        var p3 := p2 + (if cardCount >= 3 then 0.1 * cardCount as real else 0.0);
        Chance(Clamp(p3))
  }

  /** decideChallenge's odds for a bot of level `difficulty` named `name`. */
  function ChallengeOdds(difficulty: string, name: string, challengeProbability: real,
                         patterns: map<string, PlayerPattern>,
                         byValue: Option<map<string, seq<Card>>>, play: Play): Odds
  {
    if play.player == name then Never
    else if difficulty == "easy" then
      var own := ReadCount(byValue, play.declaredValue);
      if own.Unreadable? then Throws
      else if own.Count? && own.n > 0 then Chance(challengeProbability * 0.5)
      else Chance(challengeProbability)
    else if difficulty == "medium" then
      if play.cardCount >= 4 then Chance(challengeProbability * 1.5)
      else
        var own := ReadCount(byValue, play.declaredValue);
        if own.Unreadable? then Throws
        else if own.Count? && own.n > 3 - play.cardCount then Chance(challengeProbability * 2.0)
        else Chance(challengeProbability)
    else if difficulty == "hard" then
      HardOdds(challengeProbability,
               if play.player in patterns then Some(patterns[play.player]) else None,
               ReadCount(byValue, play.declaredValue), play.cardCount)
    else Chance(challengeProbability)
  }

  /** The outcome of decideChallenge. */
  datatype Verdict = Decided(challenge: bool) | TypeError

  /** Compare a draw of `Math.random()` against the odds. */
  function Resolve(odds: Odds, draw: real): (v: Verdict)
    requires 0.0 <= draw < 1.0
    ensures v.TypeError? <==> odds.Throws?
    ensures odds.Chance? && odds.p <= 0.0 ==> v == Decided(false)
    ensures odds.Chance? && odds.p >= 1.0 ==> v == Decided(true)
  {
    match odds
    case Never => Decided(false)
    case Always => Decided(true)
    case Chance(p) => Decided(draw < p)
    case Throws => TypeError
  }

  /** The bot never challenges its own play. decideChallenge throws exactly when it reads
      the count of the declared rank and that read throws: the easy level always reads
      it, the medium level only for plays of fewer than four cards, and the hard level
      only for a player not flagged as a habitual bluffer. */
  lemma ChallengeOddsFacts(difficulty: string, name: string, challengeProbability: real,
                           patterns: map<string, PlayerPattern>,
                           byValue: Option<map<string, seq<Card>>>, play: Play)
    ensures play.player == name ==>
      ChallengeOdds(difficulty, name, challengeProbability, patterns, byValue, play) == Never
    ensures ChallengeOdds(difficulty, name, challengeProbability, patterns, byValue, play).Throws? <==>
      && play.player != name
      && ReadCount(byValue, play.declaredValue).Unreadable?
      && (|| difficulty == "easy"
          || (difficulty == "medium" && play.cardCount < 4)
          || (difficulty == "hard" &&
              !(play.player in patterns && BluffRatio(patterns[play.player]) > 0.6)))
    ensures difficulty != "easy" && difficulty != "medium" && difficulty != "hard" && play.player != name ==>
      ChallengeOdds(difficulty, name, challengeProbability, patterns, byValue, play) == Chance(challengeProbability)
  {
  }

  /** At the hard level, a player whose recorded bluff ratio exceeds 0.6 is challenged with
      1.5 times the base probability, unclamped. For any other player, once the bot holds
      `own` of the declared rank, a claim of more than the `4 - own` copies it cannot see is
      always challenged, and any other claim with a probability between 0.05 and 0.95. */
  lemma HardOddsFacts(challengeProbability: real, pattern: Option<PlayerPattern>, own: nat, cardCount: nat)
    ensures pattern.Some? && BluffRatio(pattern.value) > 0.6 ==>
      HardOdds(challengeProbability, pattern, Count(own), cardCount) == Chance(challengeProbability * 1.5)
    ensures (pattern.None? || BluffRatio(pattern.value) <= 0.6) && cardCount + own > 4 ==>
      HardOdds(challengeProbability, pattern, Count(own), cardCount) == Always
    ensures (pattern.None? || BluffRatio(pattern.value) <= 0.6) && cardCount + own <= 4 ==>
      var odds := HardOdds(challengeProbability, pattern, Count(own), cardCount);
      odds.Chance? && 0.05 <= odds.p <= 0.95
    ensures pattern.None? || BluffRatio(pattern.value) <= 0.6 ==>
      var odds := HardOdds(challengeProbability, pattern, Undefined, cardCount);
      odds.Chance? && 0.05 <= odds.p <= 0.95
  {
  }

  /** A human's plays are tallied without a bluff flag, so their ratio stays 0: a hard bot
      always challenges a human who claims more copies of a rank than it cannot see. */
  lemma HardChallengesOverclaimOfUnflaggedPlayer(name: string, challengeProbability: real,
                                                 patterns: map<string, PlayerPattern>,
                                                 byValue: Option<map<string, seq<Card>>>, play: Play)
    requires play.player != name
    requires play.player in patterns ==> patterns[play.player].bluffCount == 0
    requires ReadCount(byValue, play.declaredValue).Count?
    requires play.cardCount + ReadCount(byValue, play.declaredValue).n > 4
    ensures ChallengeOdds("hard", name, challengeProbability, patterns, byValue, play) == Always
  {
    var pattern := if play.player in patterns then Some(patterns[play.player]) else None;
    HardOddsFacts(challengeProbability, pattern, ReadCount(byValue, play.declaredValue).n, play.cardCount);
  }

  /** A hard bot challenges, whatever the draw, a player whose recorded bluff ratio is above
      0.6: its base probability 0.7 times 1.5 exceeds 1. */
  lemma HardAlwaysChallengesHabitualBluffer(pattern: PlayerPattern, byValue: Option<map<string, seq<Card>>>,
                                            play: Play, name: string, draw: real)
    requires play.player != name && 0.0 <= draw < 1.0
    requires BluffRatio(pattern) > 0.6
    ensures Resolve(ChallengeOdds("hard", name, ChallengeProbability("hard"), map[play.player := pattern],
                                  byValue, play), draw) == Decided(true)
  {
  }

  /** An easy bot that holds the declared rank challenges with half its base probability,
      whatever tallies it holds. */
  lemma EasyHalvesOddsWhenHoldingRank(name: string, patterns: map<string, PlayerPattern>,
                                      byValue: Option<map<string, seq<Card>>>, play: Play)
    requires play.player != name && ReadCount(byValue, play.declaredValue).Count?
    ensures var odds := ChallengeOdds("easy", name, ChallengeProbability("easy"), patterns, byValue, play);
      odds == if ReadCount(byValue, play.declaredValue).n > 0 then Chance(ChallengeProbability("easy") * 0.5)
              else Chance(ChallengeProbability("easy"))
  {
  }

  // ---------------------------------------------------------------- the bot

  /** The last (up to) ten entries of a history. */
  function LastTen(history: seq<Action>): (r: seq<Action>)
    ensures |r| == Min(10, |history|) && r == history[|history| - |r|..]
  {
    history[|history| - Min(10, |history|)..]
  }

  /** Pushing an action and shifting the oldest out past ten entries keeps the window the
      last ten entries of the history. */
  lemma LastTenSlides(history: seq<Action>, a: Action)
    ensures LastTen(history + [a]) ==
      if |LastTen(history)| + 1 > 10 then (LastTen(history) + [a])[1..] else LastTen(history) + [a]
  {
    var h := history + [a];
    if |history| < 10 {
      assert LastTen(history) == history;
      assert LastTen(h) == h;
    } else {
      assert LastTen(history) == history[|history| - 10..];
      assert LastTen(h) == h[|h| - 10..];
      assert (history[|history| - 10..] + [a])[1..] == h[|h| - 10..];
    }
  }

  /** Tallying keeps every tally balanced, the bot's own name untallied, and an easy or
      medium bot without tallies. */
  lemma UpdatePatternsKeepsBalance(patterns: map<string, PlayerPattern>, difficulty: string, name: string, a: Action)
    requires forall p :: p in patterns ==> Balanced(patterns[p])
    requires name !in patterns && (difficulty != "hard" ==> patterns == map[])
    ensures var r := UpdatePatterns(patterns, difficulty, name, a);
      (forall p :: p in r ==> Balanced(r[p])) && name !in r && (difficulty != "hard" ==> r == map[])
  {
  }

  class Bot {
    const name: string
    const difficulty: string
    const bluffProbability: real
    const challengeProbability: real
    /** `memory`: nothing in the game ever writes to it. */
    const memory: Memory
    var cards: seq<Card>
    var gameHistory: seq<Action>
    var lastActions: seq<Action>
    var playerPatterns: map<string, PlayerPattern>
    /** `cardsByValue`: undefined until the first organizeCards. */
    var cardsByValue: Option<map<string, seq<Card>>>

    ghost predicate Valid()
      reads this
    {
      && bluffProbability == BluffProbability(difficulty)
      && challengeProbability == ChallengeProbability(difficulty)
      && memory == Memory(map[], [])
      && lastActions == LastTen(gameHistory)
      && (cardsByValue.None? ==> cards == [])
      && (cardsByValue.Some? ==> cardsByValue.value == GroupByValue(cards))
      && (difficulty != "hard" ==> playerPatterns == map[])
      && name !in playerPatterns
      && forall p :: p in playerPatterns ==> Balanced(playerPatterns[p])
    }

    /** `new Bot(difficulty, name)`: no cards, no history, no tallies, and the level's odds. */
    constructor(difficulty: string, name: string)
      ensures Valid()
      ensures this.name == name && this.difficulty == difficulty
      ensures cards == [] && gameHistory == [] && playerPatterns == map[] && cardsByValue.None?
    {
      this.name := name;
      this.difficulty := difficulty;
      bluffProbability := BluffProbability(difficulty);
      challengeProbability := ChallengeProbability(difficulty);
      memory := Memory(map[], []);
      cards := [];
      gameHistory := [];
      lastActions := [];
      playerPatterns := map[];
      cardsByValue := None;
    }

    /** organizeCards: one filter of the hand per rank of CARD_VALUES. */
    method OrganizeCards()
      modifies this`cardsByValue
      ensures cardsByValue == Some(GroupByValue(cards))
    {
      var table := TableOf(cards, CARD_VALUES);
      cardsByValue := Some(table);
    }

    /** setCards: the dealt hand replaces the hand. */
    method SetCards(hand: seq<Card>)
      requires Valid()
      modifies this`cards, this`cardsByValue
      ensures Valid()
      ensures cards == hand && cardsByValue == Some(GroupByValue(hand))
      ensures gameHistory == old(gameHistory) && playerPatterns == old(playerPatterns)
    {
      cards := hand;
      OrganizeCards();
    }

    /** addCards: penalty cards go after the hand, and every rank's list grows by the added
        cards of that rank. */
    method AddCards(added: seq<Card>)
      requires Valid()
      modifies this`cards, this`cardsByValue
      ensures Valid()
      ensures cards == old(cards) + added
      ensures gameHistory == old(gameHistory) && playerPatterns == old(playerPatterns)
      ensures multiset(cards) == multiset(old(cards)) + multiset(added)
      ensures cardsByValue.Some? && forall v :: v in CARD_VALUES ==>
        cardsByValue.value[v] == CardsOfValue(old(cards), v) + CardsOfValue(added, v)
    {
      cards := cards + added;
      OrganizeCards();
      forall v | v in CARD_VALUES
        ensures cardsByValue.value[v] == CardsOfValue(old(cards), v) + CardsOfValue(added, v)
      {
        CardsOfValueAppend(old(cards), added, v);
      }
    }

    /** removeCards: for each card, the first card of the hand with the same rank and suit
        is spliced out, if there is one. */
    method RemoveCards(toRemove: seq<Card>)
      requires Valid()
      modifies this`cards, this`cardsByValue
      ensures Valid()
      ensures cards == RemoveEach(old(cards), toRemove)
      ensures multiset(cards) == multiset(old(cards)) - multiset(toRemove)
      ensures cardsByValue == Some(GroupByValue(cards))
    {
      var k := 0;
      while k < |toRemove|
        invariant 0 <= k <= |toRemove|
        invariant RemoveEach(cards, toRemove[k..]) == RemoveEach(old(cards), toRemove)
      {
        assert toRemove[k..][1..] == toRemove[k + 1..];
        var index := IndexOf(cards, toRemove[k]);
        if index != -1 {
          cards := cards[..index] + cards[index + 1..];
        }
        k := k + 1;
      }
      RemoveEachMultiset(old(cards), toRemove);
      OrganizeCards();
    }

    /** recordAction: the action joins the history, the ten-entry window slides, and a
        hard bot tallies the action against its actor unless the actor is itself. */
    method RecordAction(a: Action)
      requires Valid()
      modifies this`gameHistory, this`lastActions, this`playerPatterns
      ensures Valid()
      ensures gameHistory == old(gameHistory) + [a]
      ensures lastActions == LastTen(gameHistory)
      ensures playerPatterns == UpdatePatterns(old(playerPatterns), difficulty, name, a)
      ensures cards == old(cards) && cardsByValue == old(cardsByValue)
    {
      LastTenSlides(gameHistory, a);
      gameHistory := gameHistory + [a];
      lastActions := lastActions + [a];
      if |lastActions| > 10 {
        lastActions := lastActions[1..];
      }
      UpdatePatternsKeepsBalance(playerPatterns, difficulty, name, a);
      playerPatterns := UpdatePatterns(playerPatterns, difficulty, name, a);
    }

    /** generatePossibleMoves: the loop over the table's keys in enumeration order. */
    method GeneratePossibleMoves() returns (moves: seq<Move>)
      requires Valid() && cardsByValue.Some?
      ensures moves == PossibleMoves(cards)
    {
      moves := [];
      var i := 0;
      while i < |KEY_ORDER|
        invariant 0 <= i <= |KEY_ORDER|
        invariant moves == PlacesFor(cards, KEY_ORDER[..i])
      {
        var v := KEY_ORDER[i];
        assert KEY_ORDER[..i + 1][..i] == KEY_ORDER[..i];
        KeyOrderListsEveryRank();
        var group := cardsByValue.value[v];
        if |group| > 0 {
          moves := moves + [Place(v, |group|, false)];
        }
        i := i + 1;
      }
      assert KEY_ORDER[..i] == KEY_ORDER;
      moves := moves + [Pass];
    }

    /** decidePlaceCards: play the first `count || 1` cards and remove them from the hand. */
    method DecidePlaceCards(chosen: Move) returns (d: Decision)
      requires Valid() && |cards| > 0
      modifies this`cards, this`cardsByValue
      ensures Valid()
      ensures var played := old(cards)[..Min(PlaceCount(chosen), |old(cards)|)];
        d == PlaceDecision(played, DeclaredValue(chosen, played[0]),
                           DeclaredValue(chosen, played[0]) != played[0].value)
      ensures cards == old(cards)[|d.cards|..] && cardsByValue == Some(GroupByValue(cards))
    {
      var count := PlaceCount(chosen);
      var played := cards[..Min(count, |cards|)];
      var declared := DeclaredValue(chosen, played[0]);
      var isBluff := declared != played[0].value;
      RemoveEachPrefix(cards, |played|);
      RemoveCards(played);
      d := PlaceDecision(played, declared, isBluff);
    }

    /** decidePlayOrPass with the draws of the strategy: the decision of `Decide`, and a
        placed run leaves the hand. */
    method DecidePlayOrPass(draw: real, pick: real) returns (d: Decision)
      requires Valid() && 0.0 <= draw < 1.0 && 0.0 <= pick < 1.0
      modifies this`cards, this`cardsByValue
      ensures Valid()
      ensures d == Decide(LoadStrategy(difficulty), bluffProbability, memory, gameHistory,
                          old(cards), draw, pick)
      ensures gameHistory == old(gameHistory) && playerPatterns == old(playerPatterns)
      ensures d.PassDecision? ==> cards == old(cards) && cardsByValue == old(cardsByValue)
      ensures d.PlaceDecision? ==> cards == old(cards)[|d.cards|..] && cardsByValue == Some(GroupByValue(cards))
    {
      if |cards| == 0 {
        return PassDecision;
      }
      var possible := GeneratePossibleMoves();
      var view := GameView(possible, AsMoves(gameHistory), |cards|, []);
      var chosen := MakeMove(LoadStrategy(difficulty), view, bluffProbability, memory, draw, pick);
      if chosen.None? || IsPassMove(chosen.value) {
        return PassDecision;
      }
      d := DecidePlaceCards(chosen.value);
    }

    /** decideChallenge with its draw. */
    function DecideChallenge(play: Play, draw: real): (v: Verdict)
      reads this
      requires Valid() && 0.0 <= draw < 1.0
      ensures play.player == name ==> v == Decided(false)
      ensures v.TypeError? ==> ReadCount(cardsByValue, play.declaredValue).Unreadable?
      ensures cardsByValue.Some? && play.declaredValue.Some? &&
        (play.declaredValue.value in CARD_VALUES || Inherited(play.declaredValue.value))
        ==> v.Decided?
    {
      ChallengeOddsFacts(difficulty, name, challengeProbability, playerPatterns, cardsByValue, play);
      ReadCountOnTable(cards, play.declaredValue);
      Resolve(ChallengeOdds(difficulty, name, challengeProbability, playerPatterns, cardsByValue, play), draw)
    }
  }
}

=== FILE: dealing.dfy ===
/** Shuffling and dealing of helpers/game.js: the in-place Fisher-Yates shuffle
    `shuffleArray`, with each `Math.random()` draw given as a parameter, and the
    `splice` loop of `distributeCards` that deals equal hands off the front of the deck. */
module Dealing {
  import opened Basics

  /** Every draw stands for a value of `Math.random()`. */
  ghost predicate ValidDraws(draws: seq<real>) {
    forall k :: 0 <= k < |draws| ==> 0.0 <= draws[k] < 1.0
  }

  /** `[s[i], s[j]] = [s[j], s[i]]`. */
  function Swap<T>(s: seq<T>, i: nat, j: nat): seq<T>
    requires i < |s| && j < |s|
  {
    s[i := s[j]][j := s[i]]
  }

  lemma SwapPermutes<T>(s: seq<T>, i: nat, j: nat)
    requires i < |s| && j < |s|
    ensures |Swap(s, i, j)| == |s| && multiset(Swap(s, i, j)) == multiset(s)
  {
    var t := s[i := s[j]];
    assert multiset(t) == multiset(s) - multiset{s[i]} + multiset{s[j]};
    assert multiset(t[j := s[i]]) == multiset(t) - multiset{t[j]} + multiset{s[i]};
  }

  /** The Fisher-Yates loop from index `i` down to 1. The draw used at index `i` is the
      `(|s| - 1 - i)`-th call of `Math.random()`, and the partner index is
      `floor(draw * (i + 1))`. */
  function ShuffleFrom<T>(s: seq<T>, draws: seq<real>, i: int): seq<T>
    requires i < |s| && |s| <= |draws| + 1 && ValidDraws(draws)
    decreases i
  {
    if i <= 0 then s
    else ShuffleFrom(Swap(s, i, ScaledIndex(draws[|s| - 1 - i], i + 1)), draws, i - 1)
  }

  /** shuffleArray applied to the contents `s`. */
  function FisherYates<T>(s: seq<T>, draws: seq<real>): seq<T>
    requires |s| <= |draws| + 1 && ValidDraws(draws)
  {
    ShuffleFrom(s, draws, |s| - 1)
  }

  /** The shuffle only swaps elements: it keeps the length and the multiset of cards. */
  lemma {:induction false} ShuffleFromPermutes<T>(s: seq<T>, draws: seq<real>, i: int)
    requires i < |s| && |s| <= |draws| + 1 && ValidDraws(draws)
    ensures |ShuffleFrom(s, draws, i)| == |s|
    ensures multiset(ShuffleFrom(s, draws, i)) == multiset(s)
    decreases i
  {
    if i > 0 {
      var j := ScaledIndex(draws[|s| - 1 - i], i + 1);
      SwapPermutes(s, i, j);
      ShuffleFromPermutes(Swap(s, i, j), draws, i - 1);
    }
  }

  lemma FisherYatesPermutes<T>(s: seq<T>, draws: seq<real>)
    requires |s| <= |draws| + 1 && ValidDraws(draws)
    ensures |FisherYates(s, draws)| == |s| && multiset(FisherYates(s, draws)) == multiset(s)
  {
    ShuffleFromPermutes(s, draws, |s| - 1);
  }

  /** shuffleArray: Fisher-Yates in place, one draw per index from the last down to 1. */
  method ShuffleArray<T>(a: array<T>, draws: seq<real>)
    requires a.Length <= |draws| + 1 && ValidDraws(draws)
    modifies a
    ensures a[..] == FisherYates(old(a[..]), draws)
    ensures multiset(a[..]) == multiset(old(a[..]))
  {
    var i := a.Length - 1;
    while i > 0
      invariant -1 <= i < a.Length
      invariant ShuffleFrom(a[..], draws, i) == FisherYates(old(a[..]), draws)
    {
      var j := ScaledIndex(draws[a.Length - 1 - i], i + 1);
      ghost var before := a[..];
      a[i], a[j] := a[j], a[i];
      assert a[..] == Swap(before, i, j);
      i := i - 1;
    }
    FisherYatesPermutes(old(a[..]), draws);
  }

  /** `Math.floor(52 / players)`; with no players the loop that uses it does not run. */
  function CardsPerPlayer(players: nat): nat {
    if players == 0 then 0 else 52 / players
  }

  /** `players` successive `splice(0, per)` calls on `deck`: the hands taken, and what remains.
      A splice takes fewer than `per` cards when fewer remain. */
  function Deal(deck: seq<Card>, players: nat, per: nat): (seq<seq<Card>>, seq<Card>)
    decreases players
  {
    if players == 0 then ([], deck)
    else
      var k := Min(per, |deck|);
      var rest := Deal(deck[k..], players - 1, per);
      ([deck[..k]] + rest.0, rest.1)
  }

  function Flatten(hands: seq<seq<Card>>): seq<Card> {
    if hands == [] then [] else hands[0] + Flatten(hands[1..])
  }

  /** Dealing only cuts the deck: one hand per player, and the hands followed by the
      remainder are the deck again. */
  lemma {:induction false} DealPartitions(deck: seq<Card>, players: nat, per: nat)
    ensures |Deal(deck, players, per).0| == players
    ensures Flatten(Deal(deck, players, per).0) + Deal(deck, players, per).1 == deck
    decreases players
  {
    if players > 0 {
      var k := Min(per, |deck|);
      DealPartitions(deck[k..], players - 1, per);
      var rest := Deal(deck[k..], players - 1, per);
      assert Deal(deck, players, per).0 == [deck[..k]] + rest.0;
      assert ([deck[..k]] + rest.0)[1..] == rest.0;
      assert deck == deck[..k] + deck[k..];
    }
  }

  /** When the deck holds enough cards, every player gets exactly `per` cards, the hands
      together are the first `players * per` cards of the deck, and the deck shrinks by
      `players * per`. */
  lemma {:induction false} DealEvenly(deck: seq<Card>, players: nat, per: nat)
    requires players * per <= |deck|
    ensures forall h :: h in Deal(deck, players, per).0 ==> |h| == per
    ensures Flatten(Deal(deck, players, per).0) == deck[..players * per]
    ensures Deal(deck, players, per).1 == deck[players * per..]
    decreases players
  {
    if players > 0 {
      var m := (players - 1) * per;
      assert players * per == per + m;
      var rest := deck[per..];
      DealEvenly(rest, players - 1, per);
      var tail := Deal(rest, players - 1, per);
      assert Deal(deck, players, per).0 == [deck[..per]] + tail.0;
      assert ([deck[..per]] + tail.0)[1..] == tail.0;
      assert deck[..per] + rest[..m] == deck[..per + m];
      assert rest[m..] == deck[per + m..];
    }
  }

  /** A full deck always suffices: every player gets `52 / players` cards and the last
      `52 % players` cards stay undealt. */
  lemma FullDeckDealsEvenly(deck: seq<Card>, players: nat)
    requires |deck| == 52 && players > 0
    ensures forall h :: h in Deal(deck, players, CardsPerPlayer(players)).0 ==> |h| == 52 / players
    ensures |Deal(deck, players, CardsPerPlayer(players)).1| == 52 % players
  {
    var per := CardsPerPlayer(players);
    DivisionOf52(players);
    DealEvenly(deck, players, per);
  }

  lemma DivisionOf52(players: nat)
    requires players > 0
    ensures CardsPerPlayer(players) == 52 / players
    ensures players * CardsPerPlayer(players) + 52 % players == 52
  {
  }

  /** The dealing loop of distributeCards: `players` splices of `CardsPerPlayer(players)`
      cards off the front of `cardset`. */
  method SpliceHands(cardset: seq<Card>, players: nat) returns (hands: seq<seq<Card>>, rest: seq<Card>)
    ensures (hands, rest) == Deal(cardset, players, CardsPerPlayer(players))
    ensures |hands| == players && Flatten(hands) + rest == cardset
    ensures players * CardsPerPlayer(players) <= |cardset| ==>
      (forall h :: h in hands ==> |h| == CardsPerPlayer(players)) &&
      Flatten(hands) == cardset[..players * CardsPerPlayer(players)] &&
      rest == cardset[players * CardsPerPlayer(players)..]
  {
    var per := CardsPerPlayer(players);
    hands, rest := [], cardset;
    var i := 0;
    while i < players
      invariant 0 <= i <= players
      invariant hands + Deal(rest, players - i, per).0 == Deal(cardset, players, per).0
      invariant Deal(rest, players - i, per).1 == Deal(cardset, players, per).1
    {
      var k := Min(per, |rest|);
      assert Deal(rest, players - i, per).0 == [rest[..k]] + Deal(rest[k..], players - i - 1, per).0;
      assert hands + ([rest[..k]] + Deal(rest[k..], players - i - 1, per).0)
          == (hands + [rest[..k]]) + Deal(rest[k..], players - i - 1, per).0;
      hands := hands + [rest[..k]];
      rest := rest[k..];
      i := i + 1;
    }
    assert hands + [] == hands;
    DealPartitions(cardset, players, per);
    if players * per <= |cardset| {
      DealEvenly(cardset, players, per);
    }
  }
}

=== FILE: moves.dfy ===
/** The objects the bot keeps in its history and hands to its strategy: recorded game
    actions (bot.recordAction) and candidate moves (bot.generatePossibleMoves). */
module Moves {
  import opened Basics

  /** A recorded game action. `player` is the actor's label (`Player 3`, or the bot's name).
      A human's recorded play carries no `wasBluff`; JavaScript reads the missing flag as
      false, and so does the model. */
  datatype Action =
    | PlaceAction(player: string, declaredValue: Option<string>, cardCount: nat, wasBluff: bool)
    | PassAction(player: string)
    | ChallengeAction(player: string, target: string, wasSuccessful: bool)
    | ChallengeReceived(player: string, wasSuccessful: bool)

  /** What a strategy chooses among: a candidate `{type: 'place', value, count}` (a move
      object may carry an `isSafe` flag), the candidate `{type: 'pass'}`, or an entry of the
      bot's history, which the strategies are handed as `previousMoves`. */
  datatype Move =
    | Place(value: string, count: nat, isSafe: bool)
    | Pass
    | Recorded(action: Action)

  /** `move.type === 'pass'`. */
  predicate IsPassMove(m: Move) {
    m.Pass? || (m.Recorded? && m.action.PassAction?)
  }

  /** `move.isSafe`, false where the object has no such field. */
  predicate IsSafe(m: Move) {
    m.Place? && m.isSafe
  }
}

=== FILE: room.dfy ===
/** One game room of server.js: the record the server keeps per room, and the socket
    handlers and timer callbacks that change it. changeTurn of helpers/game.js and the
    distributeCards override of server.js act on a room and are methods here. Each handler
    returns the timer callbacks it schedules; the registry runs them when they fire. */
module Rooms {
  import opened Basics
  import opened Turns
  import opened Dealing
  import opened Moves
  import opened BotEngine

  /** A connected client, by socket id. */
  type SocketId = nat

  /** The seat of the bot in a bot room: the second, right after the first human. */
  const BOT_SEAT: int := 1

  /** A callback handed to `setTimeout`. */
  datatype Timer =
    | StartGameDue                           // 1 s after a join seats two: startGame
    | BotTurnDue                             // 2 s: the callback of scheduleBotTurn
    | BotChallengeDue(playerPosition: int)   // 1 to 4 s after a human play: processBotChallenge
    | RaiseTimeoutDue                        // 15 s after a play: the time to challenge is over
    | NextTurnDue                            // 5 s after a challenge: changeTurn
    | NewStarterDue                          // 3 s after everyone passed: a random seat opens

  /** The ranks of a run of cards, as pushed onto the rank pile. */
  function Values(cards: seq<Card>): (r: seq<string>)
    ensures |r| == |cards| && forall i :: 0 <= i < |cards| ==> r[i] == cards[i].value
  {
    seq(|cards|, i requires 0 <= i < |cards| => cards[i].value)
  }

  /** The suits of a run of cards, as pushed onto the suit pile. */
  function Suits(cards: seq<Card>): (r: seq<string>)
    ensures |r| == |cards| && forall i :: 0 <= i < |cards| ==> r[i] == cards[i].suit
  {
    seq(|cards|, i requires 0 <= i < |cards| => cards[i].suit)
  }

  function Reverse<T>(s: seq<T>): (r: seq<T>)
    ensures |r| == |s| && forall i :: 0 <= i < |s| ==> r[i] == s[|s| - 1 - i]
  {
    seq(|s|, i requires 0 <= i < |s| => s[|s| - 1 - i])
  }

  /** `poppedElements.map((val, idx) => ({ value: val, suit: poppedSuits[idx] }))`. */
  function Zip(values: seq<string>, suits: seq<string>): (r: seq<Card>)
    requires |values| == |suits|
    ensures |r| == |values| && forall i :: 0 <= i < |r| ==> r[i] == Card(values[i], suits[i])
  {
    seq(|values|, i requires 0 <= i < |values| => Card(values[i], suits[i]))
  }

  /** What a challenge takes off the piles: the popped ranks and suits (top first), the
      piles that remain, and whether the challenge caught a bluff. */
  datatype Popped = Popped(values: seq<string>, suits: seq<string>,
                           restValues: seq<string>, restSuits: seq<string>, caught: bool)

  /** The pop loop of a challenge: up to `count` cards come off the top of the piles, the
      top card first, and the challenge succeeds when any popped rank differs from the
      round's declared rank (an absent declaration differs from every rank). */
  function Pop(values: seq<string>, suits: seq<string>, count: nat, claimed: Option<string>): (p: Popped)
    requires |values| == |suits|
    ensures var k := Min(count, |values|);
      && |p.values| == |p.suits| == k
      && (forall j :: 0 <= j < k ==> p.values[j] == values[|values| - 1 - j] && p.suits[j] == suits[|suits| - 1 - j])
      && p.restValues == values[..|values| - k] && p.restSuits == suits[..|suits| - k]
    ensures p.caught == Mismatch(p.values, claimed)
  {
    var k := Min(count, |values|);
    var popped := seq(k, j requires 0 <= j < k => values[|values| - 1 - j]);
    Popped(popped, seq(k, j requires 0 <= j < k => suits[|suits| - 1 - j]),
           values[..|values| - k], suits[..|suits| - k], Mismatch(popped, claimed))
  }

  /** Some popped rank differs from the declared one. */
  predicate Mismatch(popped: seq<string>, claimed: Option<string>) {
    exists j :: 0 <= j < |popped| && Some(popped[j]) != claimed
  }

  lemma MismatchAppend(popped: seq<string>, v: string, claimed: Option<string>)
    ensures Mismatch(popped + [v], claimed) <==> Mismatch(popped, claimed) || Some(v) != claimed
  {
    var s := popped + [v];
    if Mismatch(s, claimed) && Some(v) == claimed {
      var j :| 0 <= j < |s| && Some(s[j]) != claimed;
      assert j < |popped| && s[j] == popped[j];
    }
    if Mismatch(popped, claimed) {
      var j :| 0 <= j < |popped| && Some(popped[j]) != claimed;
      assert s[j] == popped[j];
    }
    if Some(v) != claimed {
      assert s[|popped|] == v;
    }
  }

  /** Popping only cuts the piles: what remains followed by the popped cards, put back in
      their order, is the piles as they were. */
  lemma PopSplitsPiles(values: seq<string>, suits: seq<string>, count: nat, claimed: Option<string>)
    requires |values| == |suits|
    ensures var p := Pop(values, suits, count, claimed);
      p.restValues + Reverse(p.values) == values && p.restSuits + Reverse(p.suits) == suits
  {
    var p := Pop(values, suits, count, claimed);
    var k := |p.values|;
    assert Reverse(p.values) == values[|values| - k..];
    assert Reverse(p.suits) == suits[|suits| - k..];
    assert values == values[..|values| - k] + values[|values| - k..];
    assert suits == suits[..|suits| - k] + suits[|suits| - k..];
  }

  /** Popping as many cards as were just pushed takes exactly those back off, last first. */
  lemma PopAfterPush(values: seq<string>, suits: seq<string>, pushed: seq<string>, pushedSuits: seq<string>,
                     claimed: Option<string>)
    requires |values| == |suits| && |pushed| == |pushedSuits|
    ensures Pop(values + pushed, suits + pushedSuits, |pushed|, claimed)
         == Popped(Reverse(pushed), Reverse(pushedSuits), values, suits, Mismatch(Reverse(pushed), claimed))
  {
    var all, allSuits := values + pushed, suits + pushedSuits;
    var p := Pop(all, allSuits, |pushed|, claimed);
    assert Min(|pushed|, |all|) == |pushed|;
    forall j | 0 <= j < |pushed| ensures p.values[j] == Reverse(pushed)[j] {
      assert all[|all| - 1 - j] == pushed[|pushed| - 1 - j];
    }
    assert p.values == Reverse(pushed);
    forall j | 0 <= j < |pushed| ensures p.suits[j] == Reverse(pushedSuits)[j] {
      assert allSuits[|allSuits| - 1 - j] == pushedSuits[|pushedSuits| - 1 - j];
    }
    assert p.suits == Reverse(pushedSuits);
    assert p.restValues == values && p.restSuits == suits;
    assert p == Popped(Reverse(pushed), Reverse(pushedSuits), values, suits, Mismatch(Reverse(pushed), claimed));
  }

  /** A play reveals a bluff exactly when one of its cards is not of the declared rank. */
  lemma RevealedMismatch(cards: seq<Card>, d: string)
    ensures Mismatch(Reverse(Values(cards)), Some(d)) <==> exists c :: c in cards && c.value != d
  {
    var revealed := Reverse(Values(cards));
    if exists c :: c in cards && c.value != d {
      var c :| c in cards && c.value != d;
      var i :| 0 <= i < |cards| && cards[i] == c;
      assert revealed[|cards| - 1 - i] == c.value;
    }
    if Mismatch(revealed, Some(d)) {
      var j :| 0 <= j < |revealed| && Some(revealed[j]) != Some(d);
      assert cards[|cards| - 1 - j] in cards;
    }
  }

  /** A challenge made right after a play of `cards` on piles `values`/`suits` reveals
      exactly that play, last card first, restores the piles as they were before it, and
      succeeds exactly when one of the cards is not of the declared rank `d`. */
  lemma ChallengeRevealsLastPlay(values: seq<string>, suits: seq<string>, cards: seq<Card>, d: string)
    requires |values| == |suits|
    ensures Pop(values + Values(cards), suits + Suits(cards), |cards|, Some(d))
         == Popped(Reverse(Values(cards)), Reverse(Suits(cards)), values, suits,
                   exists c :: c in cards && c.value != d)
  {
    PopAfterPush(values, suits, Values(cards), Suits(cards), Some(d));
    RevealedMismatch(cards, d);
  }


  /** What processBotChallenge came to. `Crashed`: the callback threw (a TypeError inside
      decideChallenge, or the reference to an undefined `socket` after a failed challenge),
      and an exception thrown from a timer callback ends the server process. */
  datatype BotChallengeOutcome = Declined | Challenged | Crashed

  class Room {
    var clients: seq<Option<SocketId>>
    /** `CardStack` and `SuitStack`: the ranks and suits played this round, bottom first. */
    var cardStack: seq<string>
    var suitStack: seq<string>
    var passedPlayers: seq<int>
    var playerGoingToWin: int
    var wonUsers: seq<int>
    /** `lastPlayedCardCount`; undefined before the first play, read as 0. */
    var lastPlayedCardCount: nat
    var currentTurnIndex: int
    var playingUserFail: bool
    var newGame: bool
    /** `bluff_text`: the rank declared for the round. */
    var bluffText: Option<string>
    var raiseActionDone: bool
    var cardset: seq<Card>
    var playerCards: seq<seq<Card>>
    const hasBot: bool
    const botIndex: Option<int>

    ghost predicate Valid()
      reads this`cardStack, this`suitStack, this`currentTurnIndex, this`playerGoingToWin, this`wonUsers
    {
      && |cardStack| == |suitStack|
      && currentTurnIndex >= -1
      && playerGoingToWin >= -1
      && (forall w :: w in wonUsers ==> w >= 0)
      && botIndex == (if hasBot then Some(BOT_SEAT) else None)
    }

    /** The room record created for a new room id. */
    constructor(withBot: bool, deck: seq<Card>)
      ensures Valid() && hasBot == withBot
      ensures clients == [] && cardStack == [] && suitStack == [] && passedPlayers == []
      ensures playerGoingToWin == -1 && wonUsers == [] && lastPlayedCardCount == 0
      ensures currentTurnIndex == -1 && !playingUserFail && newGame && bluffText.None?
      ensures !raiseActionDone && cardset == deck && playerCards == []
    {
      clients := [];
      cardStack := [];
      suitStack := [];
      passedPlayers := [];
      playerGoingToWin := -1;
      wonUsers := [];
      lastPlayedCardCount := 0;
      currentTurnIndex := -1;
      playingUserFail := false;
      newGame := true;
      bluffText := None;
      raiseActionDone := false;
      cardset := deck;
      hasBot := withBot;
      botIndex := if withBot then Some(BOT_SEAT) else None;
      playerCards := [];
    }

    /** scheduleBotTurn: a bot room whose bot exists gets the bot's move 2 s later exactly
        when the bot holds the turn. */
    function ScheduleBotTurn(bot: Bot?): (timers: seq<Timer>)
      reads this
      ensures timers == [BotTurnDue] <==> hasBot && bot != null && botIndex == Some(currentTurnIndex)
      ensures timers != [BotTurnDue] ==> timers == []
    {
      if hasBot && bot != null && botIndex == Some(currentTurnIndex) then [BotTurnDue] else []
    }

    /** changeTurn: the skip loop, then the award of the last active seat or the new turn. */
    method ChangeTurn()
      requires Valid()
      modifies this`wonUsers, this`currentTurnIndex
      ensures Valid()
      ensures (wonUsers, currentTurnIndex) == AfterTurnChange(|clients|, old(wonUsers), old(currentTurnIndex))
    {
      var n := |clients|;
      if n == 0 {
        return;
      }
      var nextTurnIndex := JsRem(currentTurnIndex + 1, n);
      var loopCount := 0;
      while nextTurnIndex in wonUsers && loopCount < n
        invariant 0 <= loopCount <= n
        invariant Scan(n, wonUsers, nextTurnIndex, loopCount) == Scan(n, wonUsers, JsRem(currentTurnIndex + 1, n), 0)
        decreases n - loopCount
      {
        nextTurnIndex := JsRem(nextTurnIndex + 1, n);
        loopCount := loopCount + 1;
      }
      ghost var outcome := NextTurn(n, wonUsers, currentTurnIndex);
      assert Scan(n, wonUsers, JsRem(currentTurnIndex + 1, n), 0) == (nextTurnIndex, loopCount);
      if loopCount >= n - 1 {
        var lastPlayer := FindLastActivePlayer(n, wonUsers);
        if lastPlayer != -1 && lastPlayer !in wonUsers {
          assert outcome == Awarded(lastPlayer);
          wonUsers := wonUsers + [lastPlayer];
          return;
        }
      }
      assert outcome == Moved(nextTurnIndex);
      currentTurnIndex := nextTurnIndex;
    }

    /** The distributeCards override: shuffle the room's deck in place, then give each seat
        `52 / seats` cards off its front; the dealt hands are kept in `playerCards`. */
    method DistributeCards(draws: seq<real>)
      requires Valid() && |cardset| <= |draws| + 1 && ValidDraws(draws)
      modifies this`cardset, this`playerCards
      ensures Valid()
      ensures (playerCards, cardset) == Deal(FisherYates(old(cardset), draws), |clients|, CardsPerPlayer(|clients|))
      ensures |playerCards| == |clients|
      ensures multiset(Flatten(playerCards) + cardset) == multiset(old(cardset))
      ensures |old(cardset)| == 52 && |clients| > 0 ==>
        (forall h :: h in playerCards ==> |h| == 52 / |clients|) && |cardset| == 52 % |clients|
    {
      var deck := new Card[|cardset|](i requires 0 <= i < |cardset| reads this => cardset[i]);
      assert deck[..] == cardset;
      ShuffleArray(deck, draws);
      var hands, rest := SpliceHands(deck[..], |clients|);
      if |old(cardset)| == 52 && |clients| > 0 {
        FullDeckDealsEvenly(deck[..], |clients|);
      }
      playerCards := hands;
      cardset := rest;
    }

    /** startGame: the room takes a copy of the freshly shuffled server deck, deals it,
        gives seat 0 the first turn and hands the bot its dealt cards. The bot sits at
        seat 1, so it never opens a game. */
    method StartGame(shuffledDeck: seq<Card>, draws: seq<real>, bot: Bot?) returns (timers: seq<Timer>)
      requires Valid() && (bot != null ==> hasBot && bot.Valid())
      requires |shuffledDeck| <= |draws| + 1 && ValidDraws(draws)
      modifies this`cardset, this`playerCards, this`currentTurnIndex, bot
      ensures Valid() && (bot != null ==> bot.Valid())
      ensures (playerCards, cardset) == Deal(FisherYates(shuffledDeck, draws), |clients|, CardsPerPlayer(|clients|))
      ensures |playerCards| == |clients| && currentTurnIndex == 0
      ensures bot != null && BOT_SEAT < |clients| ==>
        && bot.cards == playerCards[BOT_SEAT] && bot.cardsByValue.Some?
        && bot.gameHistory == old(bot.gameHistory) && bot.playerPatterns == old(bot.playerPatterns)
      ensures bot != null && BOT_SEAT >= |clients| ==> unchanged(bot)
      ensures timers == []
    {
      cardset := shuffledDeck;
      DistributeCards(draws);
      currentTurnIndex := 0;
      if hasBot && bot != null && botIndex.Some? && botIndex.value < |playerCards| {
        bot.SetCards(playerCards[botIndex.value]);
      }
      timers := [];
      if hasBot && botIndex == Some(currentTurnIndex) {
        timers := ScheduleBotTurn(bot);
      }
    }

    /** The `CTOS-PLACE-CARD` handler: the cards go on the piles, a seat that empties its
        hand becomes the pending winner, the first play of a round fixes its declared rank,
        the bot (if any) records the play and gets a chance to challenge, and the time to
        challenge starts. Nothing checks that the sender holds the turn. */
    method Place(socket: SocketId, selectedCards: seq<Card>, declared: string, remainingCards: int, bot: Bot?)
      returns (timers: seq<Timer>)
      requires Valid() && (bot != null ==> hasBot && bot.Valid())
      modifies this`cardStack, this`suitStack, this`lastPlayedCardCount, this`playingUserFail,
        this`playerGoingToWin, this`raiseActionDone, this`newGame, this`bluffText,
        this`passedPlayers, this`wonUsers, this`currentTurnIndex, bot
      ensures Valid() && (bot != null ==> bot.Valid())
      ensures passedPlayers == old(passedPlayers) && wonUsers == old(wonUsers)
      ensures currentTurnIndex == old(currentTurnIndex)
      ensures cardStack == old(cardStack) + Values(selectedCards) && suitStack == old(suitStack) + Suits(selectedCards)
      ensures lastPlayedCardCount == |selectedCards| && !playingUserFail && !raiseActionDone && !newGame
      ensures playerGoingToWin == if remainingCards == 0 then old(currentTurnIndex) else old(playerGoingToWin)
      ensures bluffText == if old(newGame) then Some(declared) else old(bluffText)
      ensures var position := IndexOf(clients, Some(socket));
        timers == (if bot != null then [BotChallengeDue(position)] else []) + [RaiseTimeoutDue]
      ensures bot != null ==>
        var a := PlaceAction(PlayerLabel(IndexOf(clients, Some(socket))), Some(declared), |selectedCards|, false);
        bot.gameHistory == old(bot.gameHistory) + [a] &&
        bot.playerPatterns == UpdatePatterns(old(bot.playerPatterns), bot.difficulty, bot.name, a) &&
        bot.cards == old(bot.cards) && bot.cardsByValue == old(bot.cardsByValue)
    {
      var playerPosition := IndexOf(clients, Some(socket));
      LayDown(selectedCards, declared, remainingCards == 0, currentTurnIndex);
      timers := [];
      if hasBot && bot != null {
        var a := PlaceAction(PlayerLabel(playerPosition), Some(declared), |selectedCards|, false);
        bot.RecordAction(a);
        timers := [BotChallengeDue(playerPosition)];
      }
      timers := timers + [RaiseTimeoutDue];
    }

    /** A human play as the room records it: the cards go on the piles, and the first play
        of a round fixes the round's declared rank. */
    method LayDown(cards: seq<Card>, declared: string, handEmptied: bool, seat: int)
      requires Valid() && seat >= -1
      modifies this`cardStack, this`suitStack, this`lastPlayedCardCount, this`playingUserFail,
        this`playerGoingToWin, this`raiseActionDone, this`newGame, this`bluffText
      ensures Valid()
      ensures cardStack == old(cardStack) + Values(cards) && suitStack == old(suitStack) + Suits(cards)
      ensures lastPlayedCardCount == |cards| && !playingUserFail && !raiseActionDone && !newGame
      ensures playerGoingToWin == if handEmptied then seat else old(playerGoingToWin)
      ensures bluffText == if old(newGame) then Some(declared) else old(bluffText)
    {
      PutOnPiles(cards, handEmptied, seat);
      if newGame {
        newGame := false;
        bluffText := Some(declared);
      }
    }

    /** What every play does to the piles: the cards go on top, the count of the last play
        is kept, the previous challenge is forgotten, and a seat that emptied its hand
        becomes the pending winner. */
    method PutOnPiles(cards: seq<Card>, handEmptied: bool, seat: int)
      requires Valid() && seat >= -1
      modifies this`cardStack, this`suitStack, this`lastPlayedCardCount, this`playingUserFail,
        this`playerGoingToWin, this`raiseActionDone
      ensures Valid()
      ensures cardStack == old(cardStack) + Values(cards) && suitStack == old(suitStack) + Suits(cards)
      ensures lastPlayedCardCount == |cards| && !playingUserFail && !raiseActionDone
      ensures playerGoingToWin == if handEmptied then seat else old(playerGoingToWin)
    {
      lastPlayedCardCount := |cards|;
      playingUserFail := false;
      cardStack := cardStack + Values(cards);
      suitStack := suitStack + Suits(cards);
      if handEmptied {
        playerGoingToWin := seat;
      }
      raiseActionDone := false;
    }

    /** What both challenge paths do first: mark the play as challenged, then pop while
        fewer than `lastPlayedCardCount` cards were popped and the pile is not empty,
        flagging any card that is not of the declared rank. */
    method RevealLastPlay() returns (poppedValues: seq<string>, poppedSuits: seq<string>)
      requires Valid()
      modifies this`raiseActionDone, this`cardStack, this`suitStack, this`playingUserFail
      ensures Valid() && raiseActionDone
      ensures var p := Pop(old(cardStack), old(suitStack), lastPlayedCardCount, bluffText);
        poppedValues == p.values && poppedSuits == p.suits &&
        cardStack == p.restValues && suitStack == p.restSuits && playingUserFail == p.caught
    {
      raiseActionDone := true;
      ghost var values, suits := cardStack, suitStack;
      poppedValues, poppedSuits := [], [];
      playingUserFail := false;
      var i := 0;
      while i < lastPlayedCardCount
        invariant 0 <= i <= lastPlayedCardCount && i <= |values| && raiseActionDone
        invariant cardStack == values[..|values| - i] && suitStack == suits[..|suits| - i]
        invariant |poppedValues| == |poppedSuits| == i
        invariant forall j :: 0 <= j < i ==>
          poppedValues[j] == values[|values| - 1 - j] && poppedSuits[j] == suits[|suits| - 1 - j]
        invariant playingUserFail == Mismatch(poppedValues, bluffText)
      {
        if |cardStack| > 0 {
          var poppedSuit := suitStack[|suitStack| - 1];
          var poppedElement := cardStack[|cardStack| - 1];
          suitStack := suitStack[..|suitStack| - 1];
          cardStack := cardStack[..|cardStack| - 1];
          if Some(poppedElement) != bluffText {
            playingUserFail := true;
          }
          MismatchAppend(poppedValues, poppedElement, bluffText);
          poppedValues := poppedValues + [poppedElement];
          poppedSuits := poppedSuits + [poppedSuit];
          i := i + 1;
        } else {
          break;
        }
      }
      ghost var p := Pop(values, suits, lastPlayedCardCount, bluffText);
      assert p.values == poppedValues && p.suits == poppedSuits;
    }

    /** The `CTOS-RAISE-CARD` handler: a seat cannot challenge the play of the seat holding
        the turn if it is that seat. Otherwise the last play is revealed; a caught bluff
        cancels the pending win and gives the turn to the challenger (a caught bot takes
        the revealed cards back), an honest play confirms the pending win and gives the
        turn back to the player; then the round is reset and the turn moves on 5 s later. */
    method Challenge(socket: SocketId, bot: Bot?) returns (timers: seq<Timer>)
      requires Valid() && (bot != null ==> hasBot && bot.Valid())
      modifies this`cardStack, this`suitStack, this`lastPlayedCardCount, this`playingUserFail,
        this`playerGoingToWin, this`raiseActionDone, this`newGame, this`bluffText,
        this`passedPlayers, this`wonUsers, this`currentTurnIndex, bot
      ensures Valid() && (bot != null ==> bot.Valid())
      ensures IndexOf(old(clients), Some(socket)) == old(currentTurnIndex) ==>
        unchanged(this) && (bot != null ==> unchanged(bot)) && timers == []
      ensures IndexOf(old(clients), Some(socket)) != old(currentTurnIndex) ==>
        Contested(IndexOf(old(clients), Some(socket)), bot, timers)
    {
      var challengerIndex := IndexOf(clients, Some(socket));
      var raisedClientPos := currentTurnIndex;
      if challengerIndex == raisedClientPos {
        return [];
      }
      // The bot's side reads only the revealed cards and the verdict, which the rest of
      // the challenge leaves as they are, so it is taken after the room's side.
      var poppedElements, poppedSuits := Contest(challengerIndex);
      if hasBot && botIndex == Some(raisedClientPos) && bot != null {
        BotHearsChallenge(bot, challengerIndex, playingUserFail, Zip(poppedElements, poppedSuits));
      }
      timers := [NextTurnDue];
    }

    /** What a challenge by seat `challenger` of the play of the seat holding the turn did
        to the room: the play is revealed; a caught bluff cancels the pending win and gives
        the turn to the challenger, an honest play confirms the pending win and gives the turn
        back; either way the round is cleared. */
    twostate predicate RoomContested(challenger: int)
      requires old(|cardStack| == |suitStack|)
      reads this
    {
      var raised := old(currentTurnIndex);
      var p := Pop(old(cardStack), old(suitStack), old(lastPlayedCardCount), old(bluffText));
      && lastPlayedCardCount == old(lastPlayedCardCount) && bluffText == old(bluffText)
      && raiseActionDone && playingUserFail == p.caught
      && cardStack == [] && suitStack == [] && passedPlayers == [] && newGame
      && playerGoingToWin == -1
      && (p.caught ==> currentTurnIndex == challenger && wonUsers == old(wonUsers))
      && (!p.caught ==> (currentTurnIndex == raised &&
            wonUsers == old(wonUsers) + if old(playerGoingToWin) != -1 then [old(playerGoingToWin)] else []))
    }

    /** The whole challenge: the room's side as above and the next turn scheduled; a bot
        whose play it was takes the revealed cards back when caught and records the
        challenge (a hard bot opens a record for the challenger); any other bot is left
        alone. */
    twostate predicate Contested(challenger: int, bot: Bot?, timers: seq<Timer>)
      requires old(|cardStack| == |suitStack|)
      reads this, bot
    {
      var raised := old(currentTurnIndex);
      var p := Pop(old(cardStack), old(suitStack), old(lastPlayedCardCount), old(bluffText));
      && RoomContested(challenger)
      && timers == [NextTurnDue]
      && (bot != null && raised == BOT_SEAT && challenger >= -1 ==>
            var a := ChallengeReceived(PlayerLabel(challenger), p.caught);
            && bot.cards == old(bot.cards) + (if p.caught then Zip(p.values, p.suits) else [])
            && (if p.caught then bot.cardsByValue.Some? else bot.cardsByValue == old(bot.cardsByValue))
            && bot.gameHistory == old(bot.gameHistory) + [a]
            && bot.playerPatterns == UpdatePatterns(old(bot.playerPatterns), bot.difficulty, bot.name, a))
      && (bot != null && raised != BOT_SEAT ==> unchanged(bot))
    }

    /** The room's side of a challenge by a seat that does not hold the turn: the reveal,
        then the verdict. */
    method Contest(challenger: int) returns (poppedValues: seq<string>, poppedSuits: seq<string>)
      requires Valid() && challenger >= -1 && challenger != currentTurnIndex
      modifies this`cardStack, this`suitStack, this`playingUserFail, this`playerGoingToWin,
        this`raiseActionDone, this`newGame, this`passedPlayers, this`wonUsers, this`currentTurnIndex
      ensures Valid()
      ensures var p := Pop(old(cardStack), old(suitStack), lastPlayedCardCount, bluffText);
        poppedValues == p.values && poppedSuits == p.suits
      ensures RoomContested(challenger)
    {
      var raisedClientPos := currentTurnIndex;
      poppedValues, poppedSuits := RevealLastPlay();
      ConcludeChallenge(playingUserFail, challenger, raisedClientPos);
    }

    /** A challenge of the bot's play, from the bot's side: caught, it takes the revealed
        cards back; either way it records who challenged and how it ended. */
    static method BotHearsChallenge(bot: Bot, challenger: int, caught: bool, revealed: seq<Card>)
      requires bot.Valid() && challenger >= -1
      modifies bot
      ensures bot.Valid()
      ensures bot.cards == old(bot.cards) + if caught then revealed else []
      ensures if caught then bot.cardsByValue.Some? else bot.cardsByValue == old(bot.cardsByValue)
      ensures bot.gameHistory == old(bot.gameHistory) + [ChallengeReceived(PlayerLabel(challenger), caught)]
      ensures bot.playerPatterns ==
        UpdatePatterns(old(bot.playerPatterns), bot.difficulty, bot.name, ChallengeReceived(PlayerLabel(challenger), caught))
    {
      var a := ChallengeReceived(PlayerLabel(challenger), caught);
      ghost var patterns := bot.playerPatterns;
      if caught {
        bot.AddCards(revealed);
      }
      assert bot.playerPatterns == patterns;
      ghost var cards, table := bot.cards, bot.cardsByValue;
      bot.RecordAction(a);
      assert bot.cards == cards && bot.cardsByValue == table;
    }

    /** The end of every challenge: a caught bluff cancels the pending win and gives the turn
        to the challenger; an honest play confirms the pending win and gives the turn back to
        the seat that played; either way the round is cleared. */
    method ConcludeChallenge(caught: bool, challenger: int, raised: int)
      requires Valid() && challenger >= -1 && raised >= -1
      modifies this`playerGoingToWin, this`wonUsers, this`currentTurnIndex,
        this`cardStack, this`suitStack, this`passedPlayers, this`newGame
      ensures Valid()
      ensures playerGoingToWin == -1 && cardStack == [] && suitStack == [] && passedPlayers == [] && newGame
      ensures caught ==> currentTurnIndex == challenger && wonUsers == old(wonUsers)
      ensures !caught ==> (currentTurnIndex == raised &&
        wonUsers == old(wonUsers) + if old(playerGoingToWin) != -1 then [old(playerGoingToWin)] else [])
    {
      if caught {
        playerGoingToWin := -1;
        currentTurnIndex := challenger;
      } else {
        if playerGoingToWin != -1 {
          wonUsers := wonUsers + [playerGoingToWin];
          playerGoingToWin := -1;
        }
        currentTurnIndex := raised;
      }
      cardStack := [];
      suitStack := [];
      passedPlayers := [];
      newGame := true;
    }

    /** The end of the 15 s time to challenge (after a human's or the bot's play): a pending
        winner is recorded; if nobody challenged, the turn moves on. */
    method RaiseTimeout(bot: Bot?) returns (timers: seq<Timer>)
      requires Valid() && (bot != null ==> hasBot)
      modifies this`wonUsers, this`playerGoingToWin, this`currentTurnIndex
      ensures Valid()
      ensures playerGoingToWin == -1
      ensures var won := old(wonUsers) + if old(playerGoingToWin) != -1 then [old(playerGoingToWin)] else [];
        if old(raiseActionDone) then wonUsers == won && currentTurnIndex == old(currentTurnIndex) && timers == []
        else (wonUsers, currentTurnIndex) == AfterTurnChange(|clients|, won, old(currentTurnIndex)) &&
             timers == ScheduleBotTurn(bot)
    {
      if playerGoingToWin != -1 {
        wonUsers := wonUsers + [playerGoingToWin];
        playerGoingToWin := -1;
      }
      ghost var won := wonUsers;
      assert won == old(wonUsers) + if old(playerGoingToWin) != -1 then [old(playerGoingToWin)] else [];
      timers := [];
      if !raiseActionDone {
        ChangeTurn();
        timers := ScheduleBotTurn(bot);
      }
    }

    /** A pass by `seat`: when every seat that has not won has passed, the round is cleared
        and a new starter is due 3 s later; otherwise the seat joins the passed seats and
        the turn moves on. */
    twostate predicate SeatPassed(seat: int, bot: Bot?, timers: seq<Timer>)
      reads this
    {
      var passed := old(passedPlayers) + [seat];
      if |passed| == |clients| - |old(wonUsers)| then
        passedPlayers == [] && cardStack == [] && suitStack == [] && newGame &&
        wonUsers == old(wonUsers) && currentTurnIndex == old(currentTurnIndex) && timers == [NewStarterDue]
      else
        passedPlayers == passed && cardStack == old(cardStack) && suitStack == old(suitStack) &&
        newGame == old(newGame) &&
        (wonUsers, currentTurnIndex) == AfterTurnChange(|clients|, old(wonUsers), old(currentTurnIndex)) &&
        timers == ScheduleBotTurn(bot)
    }

    /** The bot's play `d` as the room sees it: the run is on the piles under the bot's own
        declaration (the bot re-declares the round's rank with every play), the bot is the
        pending winner if its hand is empty, the play is in the bot's history, and the time
        to challenge has started. */
    twostate predicate BotPlayed(bot: Bot, d: Decision, timers: seq<Timer>)
      reads this, bot
    {
      && d.PlaceDecision?
      && bot.gameHistory == old(bot.gameHistory) + [PlaceAction(bot.name, Some(d.declaredValue), |d.cards|, d.isBluff)]
      && bot.playerPatterns == old(bot.playerPatterns) && bot.cardsByValue.Some?
      && cardStack == old(cardStack) + Values(d.cards) && suitStack == old(suitStack) + Suits(d.cards)
      && lastPlayedCardCount == |d.cards| && !playingUserFail && !raiseActionDone && !newGame
      && playerGoingToWin == (if |bot.cards| == 0 then BOT_SEAT else old(playerGoingToWin))
      && bluffText == Some(d.declaredValue) && timers == [RaiseTimeoutDue]
    }

    /** The bot's challenge of the play of the seat holding the turn: the play is revealed
        and the challenge is in the bot's history; a caught bluff gives the turn to the bot
        and clears the round, while an honest play leaves the callback throwing with the
        piles popped and nothing else changed. */
    twostate predicate BotChallenged(bot: Bot, outcome: BotChallengeOutcome, timers: seq<Timer>)
      reads this, bot
    {
      && old(|cardStack| == |suitStack| && currentTurnIndex >= -1)
      && var p := Pop(old(cardStack), old(suitStack), lastPlayedCardCount, bluffText);
      && raiseActionDone && playingUserFail == p.caught
      && bot.cards == old(bot.cards) && bot.cardsByValue == old(bot.cardsByValue)
      && bot.playerPatterns == old(bot.playerPatterns)
      && bot.gameHistory == old(bot.gameHistory) +
           [ChallengeAction(bot.name, PlayerLabel(old(currentTurnIndex)), p.caught)]
      && (p.caught ==>
            outcome == Challenged && timers == [NextTurnDue] &&
            currentTurnIndex == BOT_SEAT && playerGoingToWin == -1 && wonUsers == old(wonUsers) &&
            cardStack == [] && suitStack == [] && passedPlayers == [] && newGame)
      && (!p.caught ==>
            outcome == Crashed && timers == [] &&
            currentTurnIndex == old(currentTurnIndex) && playerGoingToWin == old(playerGoingToWin) &&
            wonUsers == old(wonUsers) && cardStack == p.restValues && suitStack == p.restSuits &&
            passedPlayers == old(passedPlayers) && newGame == old(newGame))
    }

    /** The bot's turn as the room sees it, from the hand `hand` it held before deciding: a
        play leaves the rest of the hand and is `BotPlayed`; a pass keeps hand, table and
        tallies, joins the history and is handled as a pass of the bot's seat. */
    twostate predicate BotMoved(bot: Bot, d: Decision, hand: seq<Card>, timers: seq<Timer>)
      reads this, bot
    {
      && (d.PlaceDecision? ==>
        && |d.cards| <= |hand| && bot.cards == hand[|d.cards|..] && BotPlayed(bot, d, timers)
        && passedPlayers == old(passedPlayers) && wonUsers == old(wonUsers)
        && currentTurnIndex == old(currentTurnIndex))
      && (d.PassDecision? ==>
        && bot.cards == hand && bot.cardsByValue == old(bot.cardsByValue)
        && bot.playerPatterns == old(bot.playerPatterns)
        && bot.gameHistory == old(bot.gameHistory) + [PassAction(bot.name)]
        && lastPlayedCardCount == old(lastPlayedCardCount) && playingUserFail == old(playingUserFail)
        && raiseActionDone == old(raiseActionDone) && playerGoingToWin == old(playerGoingToWin)
        && bluffText == old(bluffText)
        && SeatPassed(BOT_SEAT, bot, timers))
    }

    /** A pass by `seat` (the `CTOS-PASS-CARD` handler passes the seat holding the turn; the
        bot passes its own): when every seat that has not won has passed, the round is
        cleared and a new starter is drawn 3 s later; otherwise the turn moves on. */
    method PassSeat(seat: int, bot: Bot?) returns (timers: seq<Timer>)
      requires Valid() && (bot != null ==> hasBot)
      modifies this`passedPlayers, this`cardStack, this`suitStack, this`newGame, this`wonUsers, this`currentTurnIndex
      ensures Valid()
      ensures SeatPassed(seat, bot, timers)
    {
      passedPlayers := passedPlayers + [seat];
      if |passedPlayers| == |clients| - |wonUsers| {
        cardStack := [];
        suitStack := [];
        passedPlayers := [];
        newGame := true;
        timers := [NewStarterDue];
      } else {
        ChangeTurn();
        timers := ScheduleBotTurn(bot);
      }
    }

    /** The `CTOS-PASS-CARD` handler: the seat holding the turn passes, whoever sent it. */
    method Pass(bot: Bot?) returns (timers: seq<Timer>)
      requires Valid() && (bot != null ==> hasBot)
      modifies this`passedPlayers, this`cardStack, this`suitStack, this`newGame, this`wonUsers, this`currentTurnIndex
      ensures Valid()
      ensures SeatPassed(old(currentTurnIndex), bot, timers)
    {
      timers := PassSeat(currentTurnIndex, bot);
    }

    /** 3 s after everyone passed: with `active` seats not yet won, a seat is drawn
        uniformly among the first `active` and changeTurn runs from it, so the seat after
        the drawn one that has not won opens the round. */
    method NewStarter(draw: real, bot: Bot?) returns (timers: seq<Timer>)
      requires Valid() && (bot != null ==> hasBot) && 0.0 <= draw < 1.0
      modifies this`wonUsers, this`currentTurnIndex
      ensures Valid()
      ensures var active := |clients| - |old(wonUsers)|;
        if active > 0 then
          (wonUsers, currentTurnIndex) == AfterTurnChange(|clients|, old(wonUsers), ScaledIndex(draw, active)) &&
          timers == ScheduleBotTurn(bot)
        else wonUsers == old(wonUsers) && currentTurnIndex == old(currentTurnIndex) && timers == []
    {
      var activePlayers := |clients| - |wonUsers|;
      timers := [];
      if activePlayers > 0 {
        currentTurnIndex := ScaledIndex(draw, activePlayers);
        ChangeTurn();
        timers := ScheduleBotTurn(bot);
      }
    }

    /** 5 s after a challenge: the turn moves on from the seat the challenge gave it to. */
    method NextTurnAfterChallenge(bot: Bot?) returns (timers: seq<Timer>)
      requires Valid() && (bot != null ==> hasBot)
      modifies this`wonUsers, this`currentTurnIndex
      ensures Valid()
      ensures (wonUsers, currentTurnIndex) == AfterTurnChange(|clients|, old(wonUsers), old(currentTurnIndex))
      ensures timers == ScheduleBotTurn(bot)
    {
      ChangeTurn();
      timers := ScheduleBotTurn(bot);
    }

    /** The callback of scheduleBotTurn: the bot decides; a play goes on the piles under the
        bot's own declaration (the bot re-declares the round's rank with every play), makes
        the bot the pending winner if its hand is now empty, is recorded and starts the time
        to challenge; a pass is recorded and handled as any pass of the bot's seat. */
    method BotTurn(bot: Bot, draw: real, pick: real) returns (d: Decision, timers: seq<Timer>)
      requires Valid() && hasBot && bot.Valid() && 0.0 <= draw < 1.0 && 0.0 <= pick < 1.0
      modifies this`cardStack, this`suitStack, this`lastPlayedCardCount, this`playingUserFail,
        this`playerGoingToWin, this`raiseActionDone, this`newGame, this`bluffText,
        this`passedPlayers, this`wonUsers, this`currentTurnIndex, bot
      ensures Valid() && bot.Valid()
      ensures d == Decide(LoadStrategy(bot.difficulty), bot.bluffProbability, bot.memory,
                          old(bot.gameHistory), old(bot.cards), draw, pick)
      ensures BotMoved(bot, d, old(bot.cards), timers)
    {
      ghost var hand := bot.cards;
      d := bot.DecidePlayOrPass(draw, pick);
      assert unchanged(this);
      if d.PlaceDecision? {
        timers := BotPlays(bot, d, hand);
      } else {
        timers := BotPasses(bot, d, hand);
      }
    }

    /** The bot's play: the run goes on the piles under the bot's declaration, the bot is the
        pending winner if its hand is now empty, the play is recorded, and the time to
        challenge starts. */
    method BotPlays(bot: Bot, d: Decision, ghost hand: seq<Card>) returns (timers: seq<Timer>)
      requires Valid() && hasBot && bot.Valid() && d.PlaceDecision? && bot.cardsByValue.Some?
      requires |d.cards| <= |hand| && bot.cards == hand[|d.cards|..]
      modifies this`cardStack, this`suitStack, this`lastPlayedCardCount, this`playingUserFail,
        this`playerGoingToWin, this`raiseActionDone, this`newGame, this`bluffText, bot
      ensures Valid() && bot.Valid()
      ensures BotMoved(bot, d, hand, timers)
    {
      ghost var cardsBefore := bot.cards;
      PutOnPiles(d.cards, |bot.cards| == 0, BOT_SEAT);
      newGame := false;
      bluffText := Some(d.declaredValue);
      bot.RecordAction(PlaceAction(bot.name, Some(d.declaredValue), |d.cards|, d.isBluff));
      assert bot.cards == cardsBefore;
      timers := [RaiseTimeoutDue];
    }

    /** The bot's pass: recorded, then handled as any pass of the bot's seat. */
    method BotPasses(bot: Bot, ghost d: Decision, ghost hand: seq<Card>) returns (timers: seq<Timer>)
      requires Valid() && hasBot && bot.Valid() && d.PassDecision? && bot.cards == hand
      modifies this`passedPlayers, this`cardStack, this`suitStack, this`newGame, this`wonUsers,
        this`currentTurnIndex, bot
      ensures Valid() && bot.Valid()
      ensures BotMoved(bot, d, hand, timers)
    {
      ghost var cardsBefore := bot.cards;
      bot.RecordAction(PassAction(bot.name));
      assert bot.cards == cardsBefore;
      timers := PassSeat(BOT_SEAT, bot);
    }

    /** processBotChallenge: in a bot room with a bot, after a play, while the bot does not
        hold the turn, the bot decides whether to challenge the play of the seat at
        `playerPosition`. A challenge reveals the play as a human's does; a caught bluff
        gives the turn to the bot, while an honest play makes the callback throw. */
    method BotChallenge(bot: Bot?, playerPosition: int, draw: real)
      returns (outcome: BotChallengeOutcome, timers: seq<Timer>)
      requires Valid() && (bot != null ==> hasBot && bot.Valid())
      requires playerPosition >= -1 && 0.0 <= draw < 1.0
      modifies this`cardStack, this`suitStack, this`lastPlayedCardCount, this`playingUserFail,
        this`playerGoingToWin, this`raiseActionDone, this`newGame, this`bluffText,
        this`passedPlayers, this`wonUsers, this`currentTurnIndex, bot
      ensures Valid() && (bot != null ==> bot.Valid())
      ensures !(hasBot && botIndex != Some(old(currentTurnIndex)) && old(lastPlayedCardCount) != 0 && bot != null) ==>
        outcome == Declined && timers == [] && unchanged(this) && (bot != null ==> unchanged(bot))
      ensures hasBot && botIndex != Some(old(currentTurnIndex)) && old(lastPlayedCardCount) != 0 && bot != null ==>
        var verdict := old(bot.DecideChallenge(Play(bluffText, lastPlayedCardCount, PlayerLabel(playerPosition)), draw));
        && (verdict != Decided(true) ==> unchanged(this) && unchanged(bot) && timers == [])
        && (verdict == Decided(false) ==> outcome == Declined)
        && (verdict.TypeError? ==> outcome == Crashed)
        && (verdict == Decided(true) ==>
              (lastPlayedCardCount == old(lastPlayedCardCount) && bluffText == old(bluffText) &&
               BotChallenged(bot, outcome, timers)))
    {
      timers := [];
      if !hasBot || botIndex == Some(currentTurnIndex) || lastPlayedCardCount == 0 || bot == null {
        return Declined, [];
      }
      var shouldChallenge := bot.DecideChallenge(Play(bluffText, lastPlayedCardCount, PlayerLabel(playerPosition)), draw);
      if shouldChallenge.TypeError? {
        return Crashed, [];
      }
      if !shouldChallenge.challenge {
        return Declined, [];
      }
      outcome, timers := BotChallengesPlay(bot);
    }

    /** The bot's challenge of the play of the seat holding the turn: the play is revealed
        and the challenge recorded; a caught bluff gives the turn to the bot and clears the
        round, while an honest play makes the callback throw before anything else changes. */
    method BotChallengesPlay(bot: Bot) returns (outcome: BotChallengeOutcome, timers: seq<Timer>)
      requires Valid() && hasBot && bot.Valid()
      modifies this`cardStack, this`suitStack, this`playingUserFail, this`playerGoingToWin,
        this`raiseActionDone, this`newGame, this`passedPlayers, this`wonUsers, this`currentTurnIndex, bot
      ensures Valid() && bot.Valid()
      ensures BotChallenged(bot, outcome, timers)
    {
      var raisedClientPos := currentTurnIndex;
      ghost var p := Pop(cardStack, suitStack, lastPlayedCardCount, bluffText);
      ghost var cardsBefore := bot.cards;
      var poppedElements, poppedSuits := RevealLastPlay();
      assert playingUserFail == p.caught;
      bot.RecordAction(ChallengeAction(bot.name, PlayerLabel(raisedClientPos), playingUserFail));
      assert bot.cards == cardsBefore;
      if playingUserFail {
        // The seat challenged holds the turn, which is not the bot's: the caught cards go
        // to a human, in the browser.
        ConcludeChallenge(true, botIndex.value, raisedClientPos);
        outcome, timers := Challenged, [NextTurnDue];
      } else {
        // Sending the penalty to the challenger reads `socket`, which is not defined in
        // this function: a ReferenceError.
        outcome, timers := Crashed, [];
      }
    }
  }

  /** A round opened by the draw after everyone passed goes to a seat that has not won,
      unless every seat has won. */
  lemma NewStarterHasNotWon(n: nat, won: seq<int>, draw: real)
    requires 0.0 <= draw < 1.0 && n - |won| > 0
    ensures var r := AfterTurnChange(n, won, ScaledIndex(draw, n - |won|));
      r.1 !in r.0 || AllWon(n, r.0)
  {
    TurnChangeLandsOnActiveSeat(n, won, ScaledIndex(draw, n - |won|));
  }
}

=== FILE: server.dfy ===
/** The room registry of server.js: the `rooms`, `roomCounts` and `bots` dictionaries, the
    connection handler that seats a new socket (joining the oldest room with a free seat, or
    creating one), the disconnect handler that frees a seat and tears rooms down, startGame,
    and the delivery of socket events and timer callbacks to a room that may be gone. */
module Server {
  import opened Basics
  import opened Turns
  import opened Dealing
  import opened BotEngine
  import opened Rooms

  /** `roomCapacity`. */
  const ROOM_CAPACITY: int := 4
  /** The name every bot is created with. */
  const BOT_NAME: string := "Bot1"

  /** A room id. The server draws a fresh `uuidv4()`; the model counts. */
  type RoomId = nat

  /** The seats of `clients` that hold a socket. */
  function Occupied(clients: seq<Option<SocketId>>): (n: nat)
    ensures n <= |clients|
  {
    if clients == [] then 0
    else Occupied(clients[..|clients| - 1]) + (if clients[|clients| - 1].Some? then 1 else 0)
  }

  /** `clients.push(slot)` takes a seat exactly when it pushes a socket. */
  lemma OccupiedAppend(clients: seq<Option<SocketId>>, slot: Option<SocketId>)
    ensures Occupied(clients + [slot]) == Occupied(clients) + (if slot.Some? then 1 else 0)
  {
    assert (clients + [slot])[..|clients|] == clients;
  }

  /** `clients[pos] = null` on a seat that holds a socket frees exactly one seat. */
  lemma {:induction false} OccupiedVacate(clients: seq<Option<SocketId>>, pos: nat)
    requires pos < |clients| && clients[pos].Some?
    ensures Occupied(clients[pos := None]) == Occupied(clients) - 1
    decreases |clients|
  {
    var last := |clients| - 1;
    if pos == last {
      assert clients[pos := None][..last] == clients[..last];
    } else {
      assert clients[pos := None][..last] == clients[..last][pos := None];
      OccupiedVacate(clients[..last], pos);
    }
  }

  /** A room a new socket may join: someone is in it and a seat is free. */
  predicate IsOpen(count: int) {
    0 < count < ROOM_CAPACITY
  }

  /** The count of a room is its seats in use, the bot's included; a bot room keeps the
      bot's empty slot at seat 1 and always holds a human besides the bot. */
  ghost predicate Seated(clients: seq<Option<SocketId>>, hasBot: bool, count: int) {
    && count == Occupied(clients) + (if hasBot then 1 else 0)
    && 1 <= count <= ROOM_CAPACITY
    && (hasBot ==> count >= 2 && |clients| > BOT_SEAT && clients[BOT_SEAT].None?)
  }

  /** The room filed under `id`, if any, has a count matching its seats. */
  ghost predicate SeatedAt(rooms: map<RoomId, Room>, roomCounts: map<RoomId, int>, id: RoomId)
    reads if id in rooms then {rooms[id]} else {}
  {
    id in rooms && id in roomCounts ==> Seated(rooms[id].clients, rooms[id].hasBot, roomCounts[id])
  }

  /** Every filed room's count is its seats in use. */
  ghost predicate AllSeated(rooms: map<RoomId, Room>, roomCounts: map<RoomId, int>)
    reads rooms.Values
  {
    forall id :: SeatedAt(rooms, roomCounts, id)
  }

  /** The first socket of a new room takes seat 0; in a bot room the bot's slot follows and
      counts as a seat. */
  lemma OpeningSeated(socket: SocketId, hasBot: bool)
    ensures Seated([Some(socket)] + (if hasBot then [None] else []), hasBot, if hasBot then 2 else 1)
  {
    OccupiedAppend([], Some(socket));
    OccupiedAppend([Some(socket)], None);
  }

  /** A socket joining a room with someone in it and a free seat takes one more seat, and
      the bot's slot stays where it is. */
  lemma JoinKeepsSeated(clients: seq<Option<SocketId>>, hasBot: bool, count: int, socket: SocketId)
    requires Seated(clients, hasBot, count) && count < ROOM_CAPACITY
    ensures Seated(clients + [Some(socket)], hasBot, count + 1)
  {
    OccupiedAppend(clients, Some(socket));
  }

  /** A socket leaving its seat frees one seat. The room is left with no human exactly when
      the count drops to 0, or to 1 in a bot room; otherwise the counting still holds. */
  lemma LeaveKeepsSeated(clients: seq<Option<SocketId>>, hasBot: bool, count: int, pos: nat)
    requires Seated(clients, hasBot, count) && pos < |clients| && clients[pos].Some?
    ensures var left := count - 1;
      && ((left == 0 || (hasBot && left == 1)) <==> Occupied(clients[pos := None]) == 0)
      && (!(left == 0 || (hasBot && left == 1)) ==> Seated(clients[pos := None], hasBot, left))
  {
    OccupiedVacate(clients, pos);
  }

  /** A socket not yet seated that takes the next seat is found there by `indexOf`. */
  lemma NewSocketSeatsLast(clients: seq<Option<SocketId>>, socket: SocketId)
    requires Some(socket) !in clients
    ensures IndexOf(clients + [Some(socket)], Some(socket)) == |clients|
  {
    var c := clients + [Some(socket)];
    assert c[|clients|] == Some(socket);
    assert c[..|clients|] == clients;
  }

  /** What `Math.random` and `CardDeck.shuffle` yield while a callback runs: the two draws
      of a bot's decision (or the one of a challenge or a new starter), the server deck as
      shuffled by startGame, and the draws of the room's own shuffle. */
  datatype Chance = Chance(draw: real, pick: real, shuffledDeck: seq<Card>, shuffleDraws: seq<real>)

  ghost predicate ValidChance(c: Chance) {
    && 0.0 <= c.draw < 1.0 && 0.0 <= c.pick < 1.0
    && |c.shuffledDeck| <= |c.shuffleDraws| + 1 && ValidDraws(c.shuffleDraws)
  }

  /** An event a client sends over its socket. */
  datatype ClientEvent =
    | PlaceCard(selectedCards: seq<Card>, declared: string, remainingCards: int)  // CTOS-PLACE-CARD
    | RaiseCard                                                                   // CTOS-RAISE-CARD
    | PassCard                                                                    // CTOS-PASS-CARD

  predicate Increasing(order: seq<RoomId>) {
    forall i, j :: 0 <= i < j < |order| ==> order[i] < order[j]
  }

  /** The ids `Object.entries` lists once `delete` has removed `id`: the others, in the
      same order. */
  function Without(order: seq<RoomId>, id: RoomId): (r: seq<RoomId>)
    ensures forall x :: x in r <==> x in order && x != id
    ensures |r| <= |order|
  {
    if order == [] then []
    else if order[0] == id then Without(order[1..], id)
    else [order[0]] + Without(order[1..], id)
  }

  /** Removing an id keeps the others in increasing order. */
  lemma {:induction false} WithoutIncreasing(order: seq<RoomId>, id: RoomId)
    requires Increasing(order)
    ensures Increasing(Without(order, id))
    decreases |order|
  {
    if order != [] {
      WithoutIncreasing(order[1..], id);
      var rest := Without(order[1..], id);
      assert forall x :: x in rest ==> order[0] < x by {
        forall x | x in rest ensures order[0] < x {
          var k :| 0 <= k < |order[1..]| && order[1..][k] == x;
          assert order[k + 1] == x;
        }
      }
      if order[0] != id {
        var r := [order[0]] + rest;
        forall i, j | 0 <= i < j < |r| ensures r[i] < r[j] {
          if i == 0 {
            assert r[j] == rest[j - 1] && r[j] in rest;
          } else {
            assert r[i] == rest[i - 1] && r[j] == rest[j - 1];
          }
        }
      }
    }
  }

  /** The first id of `order` whose room is open. */
  function FirstOpen(order: seq<RoomId>, counts: map<RoomId, int>): (r: Option<RoomId>)
    ensures r.Some? ==> r.value in order && r.value in counts && IsOpen(counts[r.value])
  {
    if order == [] then None
    else if order[0] in counts && IsOpen(counts[order[0]]) then Some(order[0])
    else FirstOpen(order[1..], counts)
  }

  /** Over ids listed in increasing order: the first open id is the least open id listed,
      and none is found only when no listed id is open. */
  lemma {:induction false} FirstOpenIsLeast(order: seq<RoomId>, counts: map<RoomId, int>)
    requires Increasing(order)
    ensures var r := FirstOpen(order, counts);
      && (r.Some? ==> forall id :: id in order && id in counts && id < r.value ==> !IsOpen(counts[id]))
      && (r.None? ==> forall id :: id in order && id in counts ==> !IsOpen(counts[id]))
    decreases |order|
  {
    if order != [] {
      var rest := order[1..];
      FirstOpenIsLeast(rest, counts);
      assert forall id :: id in order ==> id == order[0] || id in rest;
      assert forall id :: id in rest ==> order[0] < id;
    }
  }

  /** The rooms are listed in the order they were created, which is the order of their ids:
      the search finds the oldest open room, and finds none only when no room is open. */
  lemma FirstOpenIsOldest(order: seq<RoomId>, counts: map<RoomId, int>)
    requires Increasing(order)
    requires forall id :: id in counts ==> id in order
    ensures var r := FirstOpen(order, counts);
      && (r.Some? ==> forall id :: id in counts && id < r.value ==> !IsOpen(counts[id]))
      && (r.None? ==> forall id :: id in counts ==> !IsOpen(counts[id]))
  {
    FirstOpenIsLeast(order, counts);
  }

  /** The dictionaries of the registry agree: `rooms` and `roomCounts` share their keys,
      a bot is kept exactly for a bot room, and `order` lists every id in increasing order,
      each id below the next fresh one. */
  ghost predicate Consistent(rooms: map<RoomId, Room>, roomCounts: map<RoomId, int>, bots: map<RoomId, Bot>,
                             order: seq<RoomId>, nextRoomId: RoomId)
  {
    && rooms.Keys == roomCounts.Keys && bots.Keys <= rooms.Keys
    && (forall id :: id in rooms ==> (id in bots <==> rooms[id].hasBot))
    && (forall id :: id in rooms ==> id < nextRoomId && id in order)
    && (forall k :: 0 <= k < |order| ==> order[k] in rooms)
    && Increasing(order)
  }

  /** The room filed under `id`, if any, is named back to `id` by `roomIds`. */
  ghost predicate KeyedAt(rooms: map<RoomId, Room>, roomIds: map<Room, RoomId>, id: RoomId) {
    id in rooms ==> rooms[id] in roomIds && roomIds[rooms[id]] == id
  }

  /** `roomIds` names the id of each filed room, so no room record is filed twice. */
  ghost predicate Keyed(rooms: map<RoomId, Room>, roomIds: map<Room, RoomId>) {
    forall id :: KeyedAt(rooms, roomIds, id)
  }

  /** Filing a room record not filed yet under a fresh id keeps every record's id. */
  lemma KeyedAdd(rooms: map<RoomId, Room>, roomIds: map<Room, RoomId>, id: RoomId, room: Room, filed: set<Room>)
    requires Keyed(rooms, roomIds) && id !in rooms
    requires (forall i :: i in rooms ==> rooms[i] in filed) && room !in filed
    ensures Keyed(rooms[id := room], roomIds[room := id])
  {
    var filedRooms, filedIds := rooms[id := room], roomIds[room := id];
    forall i ensures KeyedAt(filedRooms, filedIds, i) {
      if i != id {
        assert KeyedAt(rooms, roomIds, i);
      }
    }
  }

  /** Every room and bot in the dictionaries is one of `roomObjects` and `botObjects`. */
  ghost predicate Tracked(rooms: map<RoomId, Room>, bots: map<RoomId, Bot>, roomObjects: set<Room>, botObjects: set<Bot>) {
    && (forall id :: id in rooms ==> rooms[id] in roomObjects)
    && (forall id :: id in bots ==> bots[id] in botObjects)
  }

  /** Every room and every bot in the sets is in a consistent state. */
  ghost predicate AllValid(roomObjects: set<Room>, botObjects: set<Bot>)
    reads roomObjects`cardStack, roomObjects`suitStack, roomObjects`currentTurnIndex,
      roomObjects`playerGoingToWin, roomObjects`wonUsers, botObjects
  {
    && (forall r {:trigger r.Valid()} :: r in roomObjects ==> r.Valid())
    && (forall b {:trigger b.Valid()} :: b in botObjects ==> b.Valid())
  }

  /** A new consistent room, and bot, join the consistent ones. */
  lemma AllValidAdd(roomObjects: set<Room>, botObjects: set<Bot>, room: Room, bot: Bot?)
    requires AllValid(roomObjects, botObjects) && room.Valid() && (bot != null ==> bot.Valid())
    ensures AllValid(roomObjects + {room}, if bot != null then botObjects + {bot} else botObjects)
  {
  }

  /** The rooms and bots a registry has filed, handed to a twostate lemma as one value. */
  datatype Objects = Objects(rooms: set<Room>, bots: set<Bot>)

  /** Steps that touch no field a room's consistency depends on, and no bot, keep every
      object consistent. */
  twostate lemma AllValidFrame(objects: Objects)
    requires old(AllValid(objects.rooms, objects.bots))
    requires unchanged(objects.rooms`cardStack, objects.rooms`suitStack, objects.rooms`currentTurnIndex,
      objects.rooms`playerGoingToWin, objects.rooms`wonUsers, objects.bots)
    ensures AllValid(objects.rooms, objects.bots)
  {
  }

  lemma RegisterConsistent(rooms: map<RoomId, Room>, roomCounts: map<RoomId, int>, bots: map<RoomId, Bot>,
                           order: seq<RoomId>, nextRoomId: RoomId, room: Room, bot: Bot?, count: int)
    requires Consistent(rooms, roomCounts, bots, order, nextRoomId)
    requires bot != null <==> room.hasBot
    ensures nextRoomId !in rooms && nextRoomId !in order
    ensures Consistent(rooms[nextRoomId := room], roomCounts[nextRoomId := count],
                       if bot != null then bots[nextRoomId := bot] else bots,
                       order + [nextRoomId], nextRoomId + 1)
  {
    var order' := order + [nextRoomId];
    forall i, j | 0 <= i < j < |order'| ensures order'[i] < order'[j] {
      assert order'[i] == order[i] && order[i] in rooms;
      if j < |order| {
        assert order'[j] == order[j];
      }
    }
  }

  /** Deleting an id from the three dictionaries keeps them consistent; `order` loses
      exactly that id. */
  lemma RemoveConsistent(rooms: map<RoomId, Room>, roomCounts: map<RoomId, int>, bots: map<RoomId, Bot>,
                         order: seq<RoomId>, nextRoomId: RoomId, id: RoomId)
    requires Consistent(rooms, roomCounts, bots, order, nextRoomId)
    ensures Consistent(rooms - {id}, roomCounts - {id}, bots - {id}, Without(order, id), nextRoomId)
  {
    WithoutIncreasing(order, id);
    var order' := Without(order, id);
    forall k | 0 <= k < |order'| ensures order'[k] in rooms - {id} {
      assert order'[k] in order';
    }
  }

  /** The server's registry: the `rooms`, `roomCounts` and `bots` dictionaries, the order
      in which `Object.entries` lists the counts, and the server deck a new room copies. */
  class Registry {
    var rooms: map<RoomId, Room>
    var roomCounts: map<RoomId, int>
    var bots: map<RoomId, Bot>
    /** The ids of `roomCounts` in the order they were added, which is the order in which
        `Object.entries` lists them. */
    var order: seq<RoomId>
    /** `CardDeck.cards`, which a new room copies. */
    var serverDeck: seq<Card>
    var nextRoomId: RoomId
    /** Every room and every bot the registry has created. */
    ghost var roomObjects: set<Room>
    /** The id each filed room record is filed under. */
    ghost var roomIds: map<Room, RoomId>
    ghost var botObjects: set<Bot>

    /** The dictionaries agree, and every room and bot ever created is in a consistent
        state. */
    ghost predicate Valid()
      reads this`rooms, this`roomCounts, this`bots, this`order, this`nextRoomId,
        this`roomObjects, this`botObjects, roomObjects, botObjects
    {
      && Consistent(rooms, roomCounts, bots, order, nextRoomId)
      && Tracked(rooms, bots, roomObjects, botObjects)
      && AllValid(roomObjects, botObjects)
    }

    /** Every filed room's count is its seats in use, and no room record is filed twice. */
    ghost predicate SeatsCounted()
      reads this`rooms, this`roomCounts, this`roomIds, rooms.Values
    {
      AllSeated(rooms, roomCounts) && Keyed(rooms, roomIds)
    }

    /** Allocating a new object elsewhere keeps the registry consistent. */
    twostate lemma StillValid()
      requires old(Valid()) && unchanged(this) && unchanged(old(roomObjects)) && unchanged(old(botObjects))
      ensures Valid()
      ensures old(SeatsCounted()) ==> SeatsCounted()
    {
    }

    /** A handler that changed only the room filed under `roomId`, and its bot, keeps the
        registry consistent when those come out consistent. */
    twostate lemma RoomKept(roomId: RoomId)
      requires old(Valid()) && roomId in rooms
      requires unchanged(this`rooms, this`roomCounts, this`bots, this`order, this`nextRoomId,
        this`roomObjects, this`botObjects, this`roomIds)
      requires rooms[roomId].Valid() && forall b :: b in BotAt(roomId) ==> b.Valid()
      requires unchanged(roomObjects - RoomAt(roomId)) && unchanged(botObjects - BotAt(roomId))
      requires rooms[roomId].clients == old(rooms[roomId].clients)
      ensures Valid()
      ensures old(SeatsCounted()) ==> SeatsCounted()
    {
      if old(SeatsCounted()) {
        forall id ensures SeatedAt(rooms, roomCounts, id) {
          assert old(SeatedAt(rooms, roomCounts, id));
          if id in rooms && id != roomId {
            assert KeyedAt(rooms, roomIds, id) && KeyedAt(rooms, roomIds, roomId);
            assert rooms[id] in roomObjects - RoomAt(roomId);
          }
        }
      }
      forall r | r in roomObjects ensures r.Valid() {
        if r !in RoomAt(roomId) {
          assert old(r.Valid());
        }
      }
      forall b | b in botObjects ensures b.Valid() {
        if b !in BotAt(roomId) {
          assert old(b.Valid());
        }
      }
    }

    /** A step that changed only the seats of the room filed under `roomId`, and its count,
        keeps the registry consistent when the count still matches the seats. */
    twostate lemma SeatsRecounted(roomId: RoomId)
      requires old(Valid()) && old(SeatsCounted()) && roomId in rooms && roomId in roomCounts
      requires unchanged(this`rooms, this`bots, this`order, this`nextRoomId, this`roomObjects, this`botObjects,
        this`roomIds)
      requires roomCounts == old(roomCounts)[roomId := roomCounts[roomId]]
      requires unchanged(roomObjects - RoomAt(roomId)) && unchanged(botObjects)
      requires rooms[roomId].Valid() && Seated(rooms[roomId].clients, rooms[roomId].hasBot, roomCounts[roomId])
      ensures Valid() && SeatsCounted()
    {
      forall r | r in roomObjects ensures r.Valid() {
        if r !in RoomAt(roomId) {
          assert old(r.Valid());
        }
      }
      forall id ensures SeatedAt(rooms, roomCounts, id) {
        assert old(SeatedAt(rooms, roomCounts, id));
        if id in rooms && id != roomId {
          assert KeyedAt(rooms, roomIds, id) && KeyedAt(rooms, roomIds, roomId);
          assert rooms[id] in roomObjects - RoomAt(roomId);
        }
      }
    }

    /** Filing a room whose count matches its seats, and changing no room, keeps every
        count matching its seats. */
    twostate lemma SeatsFiled(roomId: RoomId)
      requires old(Valid()) && old(SeatsCounted()) && roomId in rooms && roomId in roomCounts
      requires roomId !in old(rooms) && rooms[roomId] !in old(roomObjects)
      requires rooms == old(rooms)[roomId := rooms[roomId]] && roomCounts == old(roomCounts)[roomId := roomCounts[roomId]]
      requires roomIds == old(roomIds)[rooms[roomId] := roomId]
      requires unchanged(old(rooms).Values)
      requires Seated(rooms[roomId].clients, rooms[roomId].hasBot, roomCounts[roomId])
      ensures SeatsCounted()
    {
      KeyedAdd(old(rooms), old(roomIds), roomId, rooms[roomId], old(roomObjects));
      forall id ensures SeatedAt(rooms, roomCounts, id) {
        assert old(SeatedAt(rooms, roomCounts, id));
        if id in rooms && id != roomId {
          assert old(rooms)[id] in old(rooms).Values;
        }
      }
    }

    /** Deleting the room filed under `roomId` from the three dictionaries, after changing
        at most the seats of that room, keeps the registry consistent and every other count
        matching its seats. */
    twostate lemma Abandoned(roomId: RoomId)
      requires old(Valid()) && old(SeatsCounted()) && roomId in old(rooms)
      requires rooms == old(rooms) - {roomId} && roomCounts == old(roomCounts) - {roomId}
      requires bots == old(bots) - {roomId} && order == Without(old(order), roomId)
      requires unchanged(this`nextRoomId, this`roomObjects, this`botObjects, this`roomIds)
      requires unchanged(roomObjects - {old(rooms[roomId])}) && unchanged(botObjects)
      requires old(rooms[roomId]).Valid()
      ensures Valid() && SeatsCounted()
    {
      RemoveConsistent(old(rooms), old(roomCounts), old(bots), old(order), nextRoomId, roomId);
      forall r | r in roomObjects ensures r.Valid() {
        if r != old(rooms[roomId]) {
          assert old(r.Valid());
        }
      }
      forall b | b in botObjects ensures b.Valid() {
        assert old(b.Valid());
      }
      forall id ensures SeatedAt(rooms, roomCounts, id) && KeyedAt(rooms, roomIds, id) {
        assert old(SeatedAt(rooms, roomCounts, id));
        assert KeyedAt(old(rooms), roomIds, id) && KeyedAt(old(rooms), roomIds, roomId);
        if id in rooms {
          assert rooms[id] in roomObjects - {old(rooms[roomId])};
        }
      }
    }

    /** The room filed under `id`, if any, as a frame. */
    ghost function RoomAt(id: RoomId): set<Room>
      reads this
    {
      if id in rooms then {rooms[id]} else {}
    }

    ghost function BotAt(id: RoomId): set<Bot>
      reads this
    {
      if id in bots then {bots[id]} else {}
    }

    /** `bots[roomId]`, with `undefined` as null. */
    function BotOf(id: RoomId): Bot?
      reads this
    {
      if id in bots then bots[id] else null
    }

    /** The room a new connection joins, if there is one. */
    ghost function OpenRoom(): set<Room>
      reads this
    {
      var open := FirstOpen(order, roomCounts);
      if open.Some? then RoomAt(open.value) else {}
    }

    /** The server at start-up: no rooms, and the server deck as `helpers/deck` builds it. */
    constructor(deck: seq<Card>)
      ensures Valid() && SeatsCounted()
      ensures rooms == map[] && roomCounts == map[] && bots == map[] && order == []
      ensures serverDeck == deck
    {
      rooms := map[];
      roomCounts := map[];
      bots := map[];
      order := [];
      serverDeck := deck;
      nextRoomId := 0;
      roomObjects := {};
      roomIds := map[];
      botObjects := {};
    }

    /** The search of the connection handler: the first room, in the order the rooms were
        created, that has someone in it and a free seat. */
    method FindRoom() returns (found: Option<RoomId>)
      requires Valid()
      ensures found == FirstOpen(order, roomCounts)
    {
      var i := 0;
      while i < |order|
        invariant 0 <= i <= |order|
        invariant FirstOpen(order[i..], roomCounts) == FirstOpen(order, roomCounts)
      {
        assert order[i..][1..] == order[i + 1..];
        var count := roomCounts[order[i]];
        if count < ROOM_CAPACITY && count > 0 {
          return Some(order[i]);
        }
        i := i + 1;
      }
      return None;
    }

    /** The creating branch of the connection handler: a new room with the server deck, and
        its bot when `withBot`, with the socket seated first (and the bot's slot after it).
        Nothing runs between filing the room and seating the socket, so the model seats the
        socket before filing the room under the next id. */
    method CreateRoom(withBot: bool, difficulty: string, socket: SocketId) returns (roomId: RoomId, position: int)
      requires Valid() && SeatsCounted()
      modifies this`nextRoomId, this`rooms, this`roomCounts, this`bots, this`order,
        this`roomObjects, this`botObjects, this`roomIds
      ensures roomId == old(nextRoomId) && roomId !in old(rooms)
      ensures roomId in rooms && fresh(rooms[roomId]) && rooms == old(rooms)[roomId := rooms[roomId]]
      ensures order == old(order) + [roomId]
      ensures roomCounts == old(roomCounts)[roomId := if withBot then 2 else 1]
      ensures var room := rooms[roomId];
        && room.hasBot == withBot && room.clients == [Some(socket)] + (if withBot then [None] else [])
        && room.currentTurnIndex == -1 && room.cardset == serverDeck
      ensures withBot ==>
        && roomId in bots && bots == old(bots)[roomId := bots[roomId]] && fresh(bots[roomId])
        && bots[roomId].difficulty == difficulty && bots[roomId].name == BOT_NAME
      ensures !withBot ==> bots == old(bots)
      ensures position == 0
      ensures Valid() && SeatsCounted()
    {
      var room := new Room(withBot, serverDeck);
      var count := TakeSeat(room, 0, socket);
      OpeningSeated(socket, withBot);
      position := IndexOf(room.clients, Some(socket));
      roomId := File(room, difficulty, count);
      roomIds := roomIds[room := roomId];
      SeatsFiled(roomId);
    }

    method File(room: Room, difficulty: string, count: int) returns (roomId: RoomId)
      requires Valid() && room.Valid() && room !in roomObjects
      modifies this`nextRoomId, this`rooms, this`roomCounts, this`bots, this`order,
        this`roomObjects, this`botObjects
      ensures Valid()
      ensures roomId == old(nextRoomId) && roomId !in old(rooms)
      ensures rooms == old(rooms)[roomId := room]
      ensures roomCounts == old(roomCounts)[roomId := count] && order == old(order) + [roomId]
      ensures room.hasBot ==>
        && roomId in bots && bots == old(bots)[roomId := bots[roomId]] && fresh(bots[roomId])
        && bots[roomId].difficulty == difficulty && bots[roomId].name == BOT_NAME
      ensures !room.hasBot ==> bots == old(bots)
    {
      var bot: Bot? := null;
      if room.hasBot {
        bot := NewBot(difficulty);
        StillValid();
      }
      roomId := Register(room, bot, count);
    }

    /** Files a new room with `count` seats taken, and its bot, under the next id. */
    method Register(room: Room, bot: Bot?, count: int) returns (roomId: RoomId)
      requires Valid() && room.Valid() && room !in roomObjects
      requires bot != null <==> room.hasBot
      requires bot != null ==> bot.Valid()
      modifies this`nextRoomId, this`rooms, this`roomCounts, this`bots, this`order,
        this`roomObjects, this`botObjects
      ensures roomId == old(nextRoomId) && roomId !in old(rooms)
      ensures rooms == old(rooms)[roomId := room]
      ensures roomCounts == old(roomCounts)[roomId := count] && order == old(order) + [roomId]
      ensures bot != null ==> bots == old(bots)[roomId := bot]
      ensures bot == null ==> bots == old(bots)
      ensures Valid()
    {
      AllValidAdd(roomObjects, botObjects, room, bot);
      ghost var rs := roomObjects + {room};
      ghost var bs := if bot != null then botObjects + {bot} else botObjects;
      roomId := nextRoomId;
      nextRoomId := nextRoomId + 1;
      roomCounts := roomCounts[roomId := count];
      rooms := rooms[roomId := room];
      order := order + [roomId];
      roomObjects := rs;
      if bot != null {
        bots := bots[roomId := bot];
      }
      botObjects := bs;
      AllValidFrame(Objects(rs, bs));
      RegisterConsistent(old(rooms), old(roomCounts), old(bots), old(order), roomId, room, bot, count);
    }

    /** `new Bot(botDifficulty, 'Bot1')`. */
    static method NewBot(difficulty: string) returns (bot: Bot)
      ensures fresh(bot) && bot.Valid() && bot.difficulty == difficulty && bot.name == BOT_NAME
      ensures bot.cards == [] && bot.gameHistory == [] && bot.playerPatterns == map[] && bot.cardsByValue.None?
    {
      bot := new Bot(difficulty, BOT_NAME);
    }

    /** The tail of the connection handler, on the open room it found: the socket takes the
        next seat and the count goes up by one. The bot's slot never follows here, since an
        open room already has someone in it. The position reported to the client is the
        socket's seat. */
    method Seat(roomId: RoomId, socket: SocketId) returns (position: int)
      requires Valid() && SeatsCounted() && roomId in roomCounts && IsOpen(roomCounts[roomId])
      modifies this`roomCounts, RoomAt(roomId)`clients
      ensures rooms[roomId].clients == old(rooms[roomId].clients) + [Some(socket)]
      ensures roomCounts == old(roomCounts)[roomId := old(roomCounts[roomId]) + 1]
      ensures position == IndexOf(rooms[roomId].clients, Some(socket))
      ensures rooms == old(rooms) && bots == old(bots) && order == old(order)
      ensures Valid() && SeatsCounted()
    {
      var room := rooms[roomId];
      ghost var before := room.clients;
      assert SeatedAt(rooms, roomCounts, roomId);
      JoinKeepsSeated(before, room.hasBot, roomCounts[roomId], socket);
      var count := TakeSeat(room, roomCounts[roomId], socket);
      assert count == old(roomCounts[roomId]) + 1 && room.clients == before + [Some(socket)];
      roomCounts := roomCounts[roomId := count];
      SeatsRecounted(roomId);
      position := IndexOf(room.clients, Some(socket));
    }

    /** `clients.push(socket)` and `roomCounts[roomId]++`, followed, for the first human of a
        bot room, by the bot's `null` slot and a second increment. */
    static method TakeSeat(room: Room, count: int, socket: SocketId) returns (newCount: int)
      modifies room`clients
      ensures var botSlot := room.hasBot && count == 0;
        && room.clients == old(room.clients) + [Some(socket)] + (if botSlot then [None] else [])
        && newCount == count + (if botSlot then 2 else 1)
    {
      room.clients := room.clients + [Some(socket)];
      newCount := count + 1;
      if room.hasBot && newCount == 1 {
        room.clients := room.clients + [None];
        newCount := newCount + 1;
      }
    }

    /** The connection handler: the socket joins the first open room in the order the rooms
        were created (the oldest, by FirstOpenIsOldest), or else a new room, with a bot when
        its handshake asks for one; a bot room is joined like any other room, whatever the
        handshake asks. The returned id is the `roomId` the socket's handlers hold. Once two
        seats are taken in a room whose game has not started, startGame is due 1 s later. */
    method Join(socket: SocketId, withBot: bool, difficulty: string)
      returns (roomId: RoomId, position: int, timers: seq<Timer>)
      requires Valid() && SeatsCounted()
      modifies this`nextRoomId, this`rooms, this`roomCounts, this`bots, this`order,
        this`roomObjects, this`botObjects, this`roomIds, OpenRoom()`clients
      ensures roomId in rooms && position == IndexOf(rooms[roomId].clients, Some(socket))
      ensures var open := FirstOpen(old(order), old(roomCounts));
        && (open.Some? ==>
              && roomId == open.value && rooms == old(rooms) && bots == old(bots) && order == old(order)
              && roomCounts == old(roomCounts)[roomId := old(roomCounts)[roomId] + 1]
              && rooms[roomId].clients == old(rooms[roomId].clients) + [Some(socket)])
        && (open.None? ==>
              && roomId == old(nextRoomId) && roomId !in old(rooms) && fresh(rooms[roomId])
              && rooms == old(rooms)[roomId := rooms[roomId]] && order == old(order) + [roomId]
              && rooms[roomId].hasBot == withBot && rooms[roomId].cardset == serverDeck
              && rooms[roomId].clients == [Some(socket)] + (if withBot then [None] else [])
              && roomCounts == old(roomCounts)[roomId := if withBot then 2 else 1]
              && (withBot ==> roomId in bots && fresh(bots[roomId]) && bots == old(bots)[roomId := bots[roomId]]
                              && bots[roomId].difficulty == difficulty && bots[roomId].name == BOT_NAME)
              && (!withBot ==> bots == old(bots)))
      ensures timers == if |rooms[roomId].clients| >= 2 && rooms[roomId].currentTurnIndex == -1
                        then [StartGameDue] else []
      ensures Valid() && SeatsCounted()
    {
      var found := FindRoom();
      if found.Some? {
        roomId := found.value;
        assert RoomAt(roomId) == OpenRoom();
        position := Seat(roomId, socket);
      } else {
        roomId, position := CreateRoom(withBot, difficulty, socket);
      }
      var room := rooms[roomId];
      timers := if |room.clients| >= 2 && room.currentTurnIndex == -1 then [StartGameDue] else [];
    }

    /** `clients[pos] = null` and `roomCounts[roomId]--`: the seat stays in place, empty,
        so the other seats keep their indices. */
    method Vacate(roomId: RoomId, pos: nat) returns (count: int)
      requires Valid() && SeatsCounted() && roomId in rooms && pos < |rooms[roomId].clients| && rooms[roomId].clients[pos].Some?
      requires var left := roomCounts[roomId] - 1; !(left == 0 || (rooms[roomId].hasBot && left == 1))
      modifies this`roomCounts, RoomAt(roomId)`clients
      ensures rooms[roomId].clients == old(rooms[roomId].clients)[pos := None]
      ensures count == old(roomCounts[roomId]) - 1 && roomCounts == old(roomCounts)[roomId := count]
      ensures rooms == old(rooms) && rooms[roomId].wonUsers == old(rooms[roomId].wonUsers)
      ensures rooms[roomId].currentTurnIndex == old(rooms[roomId].currentTurnIndex)
      ensures Valid() && SeatsCounted()
    {
      var room := rooms[roomId];
      assert SeatedAt(rooms, roomCounts, roomId);
      LeaveKeepsSeated(room.clients, room.hasBot, roomCounts[roomId], pos);
      EmptySeat(room, pos);
      count := roomCounts[roomId] - 1;
      roomCounts := roomCounts[roomId := count];
      SeatsRecounted(roomId);
    }

    static method EmptySeat(room: Room, pos: nat)
      requires pos < |room.clients|
      modifies room`clients
      ensures room.clients == old(room.clients)[pos := None]
    {
      room.clients := room.clients[pos := None];
    }

    /** The player holding the turn left: changeTurn, then the bot's move when the turn
        lands on the bot. */
    method PassTurnOn(roomId: RoomId) returns (timers: seq<Timer>)
      requires Valid() && SeatsCounted() && roomId in rooms
      modifies RoomAt(roomId)`wonUsers, RoomAt(roomId)`currentTurnIndex
      ensures var room := rooms[roomId];
        && (room.wonUsers, room.currentTurnIndex)
             == AfterTurnChange(|room.clients|, old(room.wonUsers), old(room.currentTurnIndex))
        && timers == room.ScheduleBotTurn(BotOf(roomId))
      ensures Valid() && SeatsCounted()
    {
      var room := rooms[roomId];
      room.ChangeTurn();
      RoomKept(roomId);
      timers := room.ScheduleBotTurn(BotOf(roomId));
    }

    /** The disconnect handler of the socket whose handlers hold `roomId`: nothing happens
        once the room is gone or when the socket holds no seat in it; otherwise it departs
        from its first seat. */
    method Disconnect(roomId: RoomId, socket: SocketId) returns (timers: seq<Timer>)
      requires Valid() && SeatsCounted()
      modifies this`rooms, this`roomCounts, this`bots, this`order,
        RoomAt(roomId)`clients, RoomAt(roomId)`wonUsers, RoomAt(roomId)`currentTurnIndex
      ensures roomId !in old(rooms) || IndexOf(old(rooms[roomId].clients), Some(socket)) == -1 ==>
        && rooms == old(rooms) && roomCounts == old(roomCounts) && bots == old(bots) && order == old(order)
        && (roomId in old(rooms) ==> unchanged(old(rooms[roomId]))) && timers == []
      ensures roomId in old(rooms) && IndexOf(old(rooms[roomId].clients), Some(socket)) != -1 ==>
        Departed(roomId, old(rooms[roomId]), IndexOf(old(rooms[roomId].clients), Some(socket)), timers)
      ensures Valid() && SeatsCounted()
    {
      if roomId !in rooms {
        return [];
      }
      var pos := IndexOf(rooms[roomId].clients, Some(socket));
      if pos == -1 {
        return [];
      }
      timers := Depart(roomId, pos);
    }

    /** What the departure of the player in seat `pos` of `room`, filed under `roomId`, did:
        the seat is empty and the count dropped by one; the room, its count and its bot are
        deleted when nobody is left, or only the bot (LeaveKeepsSeated: exactly when no human
        is seated any more); otherwise a leaver who held the turn passes it on. */
    twostate predicate Departed(roomId: RoomId, room: Room, pos: int, timers: seq<Timer>)
      reads this, room
    {
      && roomId in old(roomCounts) && 0 <= pos < |old(room.clients)|
      && var left := old(roomCounts[roomId]) - 1;
      && room.clients == old(room.clients)[pos := None]
      && ((left == 0 || (room.hasBot && left == 1)) <==> Occupied(room.clients) == 0)
      && ((left == 0 || (room.hasBot && left == 1)) ==>
            && rooms == old(rooms) - {roomId} && roomCounts == old(roomCounts) - {roomId}
            && bots == old(bots) - {roomId} && order == Without(old(order), roomId) && timers == [])
      && (!(left == 0 || (room.hasBot && left == 1)) ==>
            && rooms == old(rooms) && bots == old(bots) && order == old(order)
            && roomCounts == old(roomCounts)[roomId := left]
            && (pos == old(room.currentTurnIndex) ==>
                  && (room.wonUsers, room.currentTurnIndex) == AfterTurnChange(|room.clients|, old(room.wonUsers), pos)
                  && timers == room.ScheduleBotTurn(if roomId in bots then bots[roomId] else null))
            && (pos != old(room.currentTurnIndex) ==>
                  room.wonUsers == old(room.wonUsers) && room.currentTurnIndex == old(room.currentTurnIndex) && timers == []))
    }

    /** The player in seat `pos` leaves the room filed under `roomId`. */
    method Depart(roomId: RoomId, pos: nat) returns (timers: seq<Timer>)
      requires Valid() && SeatsCounted() && roomId in rooms && pos < |rooms[roomId].clients| && rooms[roomId].clients[pos].Some?
      modifies this`rooms, this`roomCounts, this`bots, this`order,
        RoomAt(roomId)`clients, RoomAt(roomId)`wonUsers, RoomAt(roomId)`currentTurnIndex
      ensures Departed(roomId, old(rooms[roomId]), pos, timers)
      ensures Valid() && SeatsCounted()
    {
      var left := roomCounts[roomId] - 1;
      assert SeatedAt(rooms, roomCounts, roomId);
      LeaveKeepsSeated(rooms[roomId].clients, rooms[roomId].hasBot, roomCounts[roomId], pos);
      if left == 0 || (rooms[roomId].hasBot && left == 1) {
        Abandon(roomId, pos);
        timers := [];
      } else {
        timers := Leave(roomId, pos);
      }
    }

    /** The last human leaves: the seat is emptied and the room is deleted. */
    method Abandon(roomId: RoomId, pos: nat)
      requires Valid() && SeatsCounted() && roomId in rooms && pos < |rooms[roomId].clients| && rooms[roomId].clients[pos].Some?
      modifies this`rooms, this`roomCounts, this`bots, this`order, RoomAt(roomId)`clients
      ensures old(rooms[roomId]).clients == old(rooms[roomId].clients)[pos := None]
      ensures rooms == old(rooms) - {roomId} && roomCounts == old(roomCounts) - {roomId}
      ensures bots == old(bots) - {roomId} && order == Without(old(order), roomId)
      ensures Valid() && SeatsCounted()
    {
      var room := rooms[roomId];
      EmptySeat(room, pos);
      rooms := rooms - {roomId};
      roomCounts := roomCounts - {roomId};
      bots := bots - {roomId};
      order := Without(order, roomId);
      Abandoned(roomId);
    }

    /** A player leaves a room that others still play in: the seat is emptied, the count
        drops, and a leaver who held the turn passes it on. */
    method Leave(roomId: RoomId, pos: nat) returns (timers: seq<Timer>)
      requires Valid() && SeatsCounted() && roomId in rooms && pos < |rooms[roomId].clients| && rooms[roomId].clients[pos].Some?
      requires var left := roomCounts[roomId] - 1; !(left == 0 || (rooms[roomId].hasBot && left == 1))
      modifies this`roomCounts, RoomAt(roomId)`clients, RoomAt(roomId)`wonUsers, RoomAt(roomId)`currentTurnIndex
      ensures var room := rooms[roomId];
        && room.clients == old(room.clients)[pos := None]
        && roomCounts == old(roomCounts)[roomId := old(roomCounts[roomId]) - 1]
        && (pos == old(room.currentTurnIndex) ==>
              && (room.wonUsers, room.currentTurnIndex) == AfterTurnChange(|room.clients|, old(room.wonUsers), pos)
              && timers == room.ScheduleBotTurn(BotOf(roomId)))
        && (pos != old(room.currentTurnIndex) ==>
              room.wonUsers == old(room.wonUsers) && room.currentTurnIndex == old(room.currentTurnIndex) && timers == [])
      ensures Valid() && SeatsCounted()
    {
      var count := Vacate(roomId, pos);
      timers := PassTurnIfHeld(roomId, pos);
    }

    /** The leaver in seat `pos` passes the turn on when it held it. */
    method PassTurnIfHeld(roomId: RoomId, pos: nat) returns (timers: seq<Timer>)
      requires Valid() && SeatsCounted() && roomId in rooms
      modifies RoomAt(roomId)`wonUsers, RoomAt(roomId)`currentTurnIndex
      ensures var room := rooms[roomId];
        && (pos == old(room.currentTurnIndex) ==>
              && (room.wonUsers, room.currentTurnIndex) == AfterTurnChange(|room.clients|, old(room.wonUsers), pos)
              && timers == room.ScheduleBotTurn(BotOf(roomId)))
        && (pos != old(room.currentTurnIndex) ==>
              room.wonUsers == old(room.wonUsers) && room.currentTurnIndex == old(room.currentTurnIndex) && timers == [])
      ensures rooms == old(rooms) && roomCounts == old(roomCounts) && rooms[roomId].clients == old(rooms[roomId].clients)
      ensures Valid() && SeatsCounted()
    {
      if rooms[roomId].currentTurnIndex == pos {
        timers := PassTurnOn(roomId);
      } else {
        timers := [];
      }
    }

    /** The CTOS-PLACE-CARD, CTOS-RAISE-CARD and CTOS-PASS-CARD handlers of a socket whose
        handlers hold `roomId`: nothing happens once the room is gone; otherwise the room
        handles the event, with its bot if it has one, and stays consistent. */
    method Handle(roomId: RoomId, socket: SocketId, e: ClientEvent) returns (timers: seq<Timer>)
      requires Valid() && SeatsCounted()
      modifies RoomAt(roomId), BotAt(roomId)
      ensures roomId !in rooms ==> timers == []
      ensures Valid() && SeatsCounted()
    {
      if roomId !in rooms {
        return [];
      }
      var room := rooms[roomId];
      timers := RunEvent(room, BotOf(roomId), socket, e);
      RoomKept(roomId);
    }

    /** A timer callback firing for `roomId`: nothing happens once the room is gone;
        otherwise startGame first shuffles the server deck, and the room runs the callback
        with its bot if it has one. */
    method Fire(roomId: RoomId, t: Timer, c: Chance) returns (timers: seq<Timer>, crashed: bool)
      requires Valid() && SeatsCounted() && ValidChance(c)
      requires t.BotChallengeDue? ==> t.playerPosition >= -1
      modifies this`serverDeck, RoomAt(roomId), BotAt(roomId)
      ensures serverDeck == if roomId in rooms && t == StartGameDue then c.shuffledDeck else old(serverDeck)
      ensures roomId !in rooms ==> timers == [] && !crashed
      ensures crashed ==> t.BotChallengeDue?
      ensures Valid() && SeatsCounted()
    {
      if roomId !in rooms {
        return [], false;
      }
      var room := rooms[roomId];
      if t == StartGameDue {
        serverDeck := c.shuffledDeck;
      }
      timers, crashed := RunTimer(room, BotOf(roomId), t, c);
      RoomKept(roomId);
    }
  }

  /** The socket handler for `e`, run on a room that still exists. */
  method RunEvent(room: Room, bot: Bot?, socket: SocketId, e: ClientEvent) returns (timers: seq<Timer>)
    requires room.Valid() && (bot != null ==> room.hasBot && bot.Valid())
    modifies room, bot
    ensures room.Valid() && (bot != null ==> bot.Valid())
    ensures room.clients == old(room.clients)
  {
    match e {
      case PlaceCard(selectedCards, declared, remainingCards) =>
        timers := room.Place(socket, selectedCards, declared, remainingCards, bot);
      case RaiseCard =>
        timers := room.Challenge(socket, bot);
      case PassCard =>
        timers := room.Pass(bot);
    }
  }

  /** The timer callback for `t`, run on a room that still exists: startGame, the bot's
      move, the bot's challenge decision, the end of the time to challenge, the turn after
      a challenge, or the random opener after everyone passed. `crashed` reports a bot
      challenge callback that threw. */
  method RunTimer(room: Room, bot: Bot?, t: Timer, c: Chance) returns (timers: seq<Timer>, crashed: bool)
    requires room.Valid() && (bot != null ==> room.hasBot && bot.Valid()) && ValidChance(c)
    requires t.BotChallengeDue? ==> t.playerPosition >= -1
    modifies room, bot
    ensures room.Valid() && (bot != null ==> bot.Valid())
    ensures room.clients == old(room.clients)
    ensures crashed ==> t.BotChallengeDue?
  {
    timers, crashed := [], false;
    match t {
      case StartGameDue =>
        timers := room.StartGame(c.shuffledDeck, c.shuffleDraws, bot);
      case BotTurnDue =>
        if bot != null {
          var decision;
          decision, timers := room.BotTurn(bot, c.draw, c.pick);
        }
      case BotChallengeDue(playerPosition) =>
        var outcome;
        outcome, timers := room.BotChallenge(bot, playerPosition, c.draw);
        crashed := outcome == Crashed;
      case RaiseTimeoutDue =>
        timers := room.RaiseTimeout(bot);
      case NextTurnDue =>
        timers := room.NextTurnAfterChallenge(bot);
      case NewStarterDue =>
        timers := room.NewStarter(c.draw, bot);
    }
  }
}

=== FILE: strategies.dfy ===
/** The three move strategies of helpers/bot/strategies: pure selections among the
    candidate moves. Each `Math.random()` call is a parameter: `draw` decides whether to
    pick at random, `pick` chooses the random index. No strategy changes its inputs. */
module Strategies {
  import opened Basics
  import opened Moves

  /** An entry of `opponentBluffPatterns`: when the last previous move is `pattern`, answer
      with `counterMove`. Either may be absent (`undefined`). */
  datatype Pattern = Pattern(pattern: Option<Move>, counterMove: Option<Move>)

  /** The `gameState` a strategy reads. */
  datatype GameView = GameView(
    possibleMoves: seq<Move>,
    previousMoves: seq<Move>,
    currentHandSize: int,
    opponentBluffPatterns: seq<Pattern>)

  /** The bot's `memory`: known bluffs keyed by move, and previous moves. */
  datatype Memory = Memory(bluffHistory: map<Option<Move>, int>, previousMoves: seq<Move>)

  /** `moves[Math.floor(pick * moves.length)]`: undefined when there are no moves. */
  function RandomPick(moves: seq<Move>, pick: real): (r: Option<Move>)
    requires 0.0 <= pick < 1.0
    ensures r.Some? <==> |moves| > 0
    ensures r.Some? ==> r.value in moves
  {
    if |moves| == 0 then None else Some(moves[ScaledIndex(pick, |moves|)])
  }

  /** `moves[0]`: undefined when there are no moves. */
  function First(moves: seq<Move>): Option<Move> {
    if |moves| == 0 then None else Some(moves[0])
  }

  /** easyStrategy.makeMove: with probability `bluffFrequency` a random candidate,
      otherwise the OLDEST previous move, else the first candidate. */
  function EasyMove(view: GameView, bluffFrequency: real, draw: real, pick: real): (r: Option<Move>)
    requires 0.0 <= draw < 1.0 && 0.0 <= pick < 1.0
    ensures r.Some? ==> r.value in view.possibleMoves || r.value in view.previousMoves
    ensures r.None? <==> |view.possibleMoves| == 0 && (draw < bluffFrequency || |view.previousMoves| == 0)
    ensures draw < bluffFrequency ==> r == RandomPick(view.possibleMoves, pick)
    ensures draw >= bluffFrequency && |view.previousMoves| > 0 ==> r == Some(view.previousMoves[0])
    ensures draw >= bluffFrequency && |view.previousMoves| == 0 ==> r == First(view.possibleMoves)
  {
    if draw < bluffFrequency then RandomPick(view.possibleMoves, pick)
    else if |view.previousMoves| > 0 then Some(view.previousMoves[0])
    else First(view.possibleMoves)
  }

  /** mediumStrategy.makeMove: with probability `bluffFrequency` a random candidate,
      otherwise the MOST RECENT previous move, else the first candidate. */
  function MediumMove(view: GameView, bluffFrequency: real, draw: real, pick: real): (r: Option<Move>)
    requires 0.0 <= draw < 1.0 && 0.0 <= pick < 1.0
    ensures r.Some? ==> r.value in view.possibleMoves || r.value in view.previousMoves
    ensures r.None? <==> |view.possibleMoves| == 0 && (draw < bluffFrequency || |view.previousMoves| == 0)
    ensures draw < bluffFrequency ==> r == RandomPick(view.possibleMoves, pick)
    ensures draw >= bluffFrequency && |view.previousMoves| > 0 ==>
      r == Some(view.previousMoves[|view.previousMoves| - 1])
    ensures draw >= bluffFrequency && |view.previousMoves| == 0 ==> r == First(view.possibleMoves)
  {
    if draw < bluffFrequency then RandomPick(view.possibleMoves, pick)
    else if |view.previousMoves| > 0 then Some(view.previousMoves[|view.previousMoves| - 1])
    else First(view.possibleMoves)
  }

  /** `previousMoves.slice(-1)[0]`: the last previous move, undefined when there is none. */
  function LastMove(view: GameView): Option<Move> {
    if |view.previousMoves| == 0 then None else Some(view.previousMoves[|view.previousMoves| - 1])
  }

  /** `memory.bluffHistory[lastMove] || 0`. */
  function BluffCount(memory: Memory, lastMove: Option<Move>): int {
    if lastMove in memory.bluffHistory then memory.bluffHistory[lastMove] else 0
  }

  /** `patterns.find(p => p.pattern === lastMove)`: the first pattern for `lastMove`. */
  function FindPattern(patterns: seq<Pattern>, lastMove: Option<Move>): (r: Option<Pattern>)
    ensures r.None? <==> forall p :: p in patterns ==> p.pattern != lastMove
    ensures r.Some? ==> (r.value.pattern == lastMove &&
      exists i :: 0 <= i < |patterns| && patterns[i] == r.value &&
        forall j :: 0 <= j < i ==> patterns[j].pattern != lastMove)
  {
    if |patterns| == 0 then None
    else if patterns[0].pattern == lastMove then Some(patterns[0])
    else
      var r := FindPattern(patterns[1..], lastMove);
      assert forall p :: p in patterns[1..] ==> p in patterns;
      if r.Some? then
        ghost var i :| 0 <= i < |patterns[1..]| && patterns[1..][i] == r.value &&
          forall j :: 0 <= j < i ==> patterns[1..][j].pattern != lastMove;
        assert patterns[i + 1] == r.value;
        r
      else r
  }

  /** `moves.find(m => m.isSafe)`: the first candidate flagged safe. */
  function FirstSafe(moves: seq<Move>): (r: Option<Move>)
    ensures r.None? <==> forall m :: m in moves ==> !IsSafe(m)
    ensures r.Some? ==> (IsSafe(r.value) &&
      exists i :: 0 <= i < |moves| && moves[i] == r.value && forall j :: 0 <= j < i ==> !IsSafe(moves[j]))
  {
    if |moves| == 0 then None
    else if IsSafe(moves[0]) then Some(moves[0])
    else
      var r := FirstSafe(moves[1..]);
      assert forall m :: m in moves[1..] ==> m in moves;
      if r.Some? then
        ghost var i :| 0 <= i < |moves[1..]| && moves[1..][i] == r.value &&
          forall j :: 0 <= j < i ==> !IsSafe(moves[1..][j]);
        assert moves[i + 1] == r.value;
        r
      else r
  }

  /** The counter-move the hard strategy plays without drawing: the counter of the first
      pattern that matches the last previous move, if it is among the candidates. */
  function Counter(view: GameView): Option<Move> {
    var patternMatch := FindPattern(view.opponentBluffPatterns, LastMove(view));
    if patternMatch.Some? && patternMatch.value.counterMove.Some?
       && patternMatch.value.counterMove.value in view.possibleMoves
    then patternMatch.value.counterMove
    else None
  }

  /** The hard strategy's bluff frequency: 0.05 more per recorded bluff of the last
      move, and 0.1 more when the bot holds 4 cards or fewer. */
  function AdjustedBluffFrequency(bluffFrequency: real, bluffCount: int, handSize: int): real {
    bluffFrequency + bluffCount as real * 0.05 + (if handSize <= 4 then 0.1 else 0.0)
  }

  /** The hard bot bluffs more against moves it has caught as bluffs before, and more
      again when its hand is small. */
  lemma AdjustedFrequencyGrows(bluffFrequency: real, count1: int, count2: int, handSize: int)
    requires count1 <= count2
    ensures AdjustedBluffFrequency(bluffFrequency, count1, handSize)
         <= AdjustedBluffFrequency(bluffFrequency, count2, handSize)
    ensures AdjustedBluffFrequency(bluffFrequency, count1, 4)
         == AdjustedBluffFrequency(bluffFrequency, count1, 5) + 0.1
    ensures handSize > 4 ==>
      AdjustedBluffFrequency(bluffFrequency, count2, handSize) - AdjustedBluffFrequency(bluffFrequency, count1, handSize)
        == (count2 - count1) as real * 0.05
  {
  }

  /** hardStrategy.makeMove: a known counter-move first; otherwise, with the adjusted
      frequency, a random candidate; otherwise the first safe candidate, else the first. */
  function HardMove(view: GameView, bluffFrequency: real, memory: Memory, draw: real, pick: real): (r: Option<Move>)
    requires 0.0 <= draw < 1.0 && 0.0 <= pick < 1.0
    ensures r.Some? ==> r.value in view.possibleMoves
    ensures r.None? <==> |view.possibleMoves| == 0
    ensures Counter(view).Some? ==> r == Counter(view)
    ensures Counter(view).None? &&
      draw < AdjustedBluffFrequency(bluffFrequency, BluffCount(memory, LastMove(view)), view.currentHandSize)
      ==> r == RandomPick(view.possibleMoves, pick)
    ensures Counter(view).None? &&
      draw >= AdjustedBluffFrequency(bluffFrequency, BluffCount(memory, LastMove(view)), view.currentHandSize)
      ==> r == if FirstSafe(view.possibleMoves).Some? then FirstSafe(view.possibleMoves) else First(view.possibleMoves)
  {
    var counter := Counter(view);
    if counter.Some? then counter
    else
      var adjusted := AdjustedBluffFrequency(bluffFrequency, BluffCount(memory, LastMove(view)), view.currentHandSize);
      if draw < adjusted then RandomPick(view.possibleMoves, pick)
      else
        var safe := FirstSafe(view.possibleMoves);
        if safe.Some? then safe else First(view.possibleMoves)
  }

  /** A recognised counter-move is played whatever the random draws are. */
  lemma HardCounterNeedsNoDraw(view: GameView, bluffFrequency: real, memory: Memory,
                               draw1: real, pick1: real, draw2: real, pick2: real)
    requires 0.0 <= draw1 < 1.0 && 0.0 <= pick1 < 1.0 && 0.0 <= draw2 < 1.0 && 0.0 <= pick2 < 1.0
    requires Counter(view).Some?
    ensures HardMove(view, bluffFrequency, memory, draw1, pick1) == HardMove(view, bluffFrequency, memory, draw2, pick2)
  {
  }
}

=== FILE: turns.dfy ===
/** Turn rotation of helpers/game.js: the skip scan of `changeTurn` and
    `findLastActivePlayer`, as functions of the seat count `n`, the list of seats
    that have won, and the current turn index. The method that applies them to a
    room is `Rooms.Room.ChangeTurn`. */
module Turns {
  import opened Basics

  /** The seat `d` places after seat `start`, going round a table of `n` seats. */
  function SeatAfter(n: nat, start: nat, d: nat): (s: nat)
    requires start < n && d <= n
    ensures s < n
  {
    if start + d < n then start + d else start + d - n
  }

  /** How many places after `start` seat `s` comes, going round the table: the inverse of SeatAfter. */
  function Offset(n: nat, start: nat, s: nat): (d: nat)
    requires start < n && s < n
    ensures d < n && SeatAfter(n, start, d) == s
    ensures forall e :: 0 <= e < n && SeatAfter(n, start, e) == s ==> e == d
  {
    if s >= start then s - start else s + n - start
  }

  /** The skip loop of changeTurn: `idx` is the candidate after `loops` skips; while the
      candidate has won and fewer than `n` skips were made, move to `(idx + 1) % n`.
      Yields the final candidate and the number of skips. */
  function Scan(n: nat, won: seq<int>, idx: int, loops: nat): (int, nat)
    requires 0 < n && loops <= n
    decreases n - loops
  {
    if idx in won && loops < n then Scan(n, won, JsRem(idx + 1, n), loops + 1) else (idx, loops)
  }

  /** The scan visits the seats after `start` in order, and stops at the first one that has
      not won, or after `n` skips. */
  lemma {:induction false} ScanFacts(n: nat, won: seq<int>, start: nat, idx: int, loops: nat)
    requires 0 < n && start < n && loops <= n && idx == SeatAfter(n, start, loops)
    ensures loops <= Scan(n, won, idx, loops).1 <= n
    ensures Scan(n, won, idx, loops).0 == SeatAfter(n, start, Scan(n, won, idx, loops).1)
    ensures forall d :: loops <= d < Scan(n, won, idx, loops).1 ==> SeatAfter(n, start, d) in won
    ensures Scan(n, won, idx, loops).1 < n ==> Scan(n, won, idx, loops).0 !in won
    decreases n - loops
  {
    if idx in won && loops < n {
      assert JsRem(idx + 1, n) == SeatAfter(n, start, loops + 1);
      ScanFacts(n, won, start, JsRem(idx + 1, n), loops + 1);
    }
  }

  /** The seats from `i` on that have not won: the first of them, or -1 when all have won. */
  function FirstActiveFrom(n: nat, won: seq<int>, i: nat): (r: int)
    requires i <= n
    ensures r == -1 <==> (forall j :: i <= j < n ==> j in won)
    ensures r != -1 ==> i <= r < n && r !in won && forall j :: i <= j < r ==> j in won
    decreases n - i
  {
    if i == n then -1 else if i !in won then i else FirstActiveFrom(n, won, i + 1)
  }

  /** The lowest seat of `n` that has not won, or -1 if every seat has. */
  function LowestActiveSeat(n: nat, won: seq<int>): (r: int)
    ensures r == -1 <==> AllWon(n, won)
    ensures r != -1 ==> 0 <= r < n && r !in won && forall j :: 0 <= j < r ==> j in won
  {
    FirstActiveFrom(n, won, 0)
  }

  /** findLastActivePlayer: scan the seats upwards for the first that has not won. */
  method FindLastActivePlayer(n: nat, won: seq<int>) returns (r: int)
    ensures r == LowestActiveSeat(n, won)
    ensures r == -1 <==> AllWon(n, won)
  {
    var i := 0;
    while i < n
      invariant 0 <= i <= n
      invariant forall j :: 0 <= j < i ==> j in won
    {
      if i !in won {
        return i;
      }
      i := i + 1;
    }
    return -1;
  }

  ghost predicate AllWon(n: nat, won: seq<int>) {
    forall s :: 0 <= s < n ==> s in won
  }

  /** Seat `s` is the only seat of the `n` that has not won. */
  ghost predicate OnlyActive(n: nat, won: seq<int>, s: int) {
    0 <= s < n && s !in won && forall t :: 0 <= t < n && t != s ==> t in won
  }

  /** What changeTurn does to a room: nothing (no seats), move the turn to `next`, or
      append `seat` to the won list and leave the turn where it is. */
  datatype TurnOutcome = Unchanged | Moved(next: int) | Awarded(seat: int)

  /** The outcome of changeTurn for a room with `n` seats, won list `won` and turn `cur`. */
  function NextTurn(n: nat, won: seq<int>, cur: int): (r: TurnOutcome)
    ensures r.Unchanged? <==> n == 0
    ensures r.Awarded? ==> 0 <= r.seat < n && r.seat !in won
    ensures cur >= -1 && r.Moved? ==> 0 <= r.next < n
  {
    if n == 0 then Unchanged
    else
      var start := JsRem(cur + 1, n);
      var scan := Scan(n, won, start, 0);
      var last := LowestActiveSeat(n, won);
      if scan.1 >= n - 1 && last != -1 && last !in won then Awarded(last)
      else
        assert cur >= -1 ==> 0 <= scan.0 < n by {
          if cur >= -1 { ScanFacts(n, won, start, start, 0); }
        }
        Moved(scan.0)
  }

  /** The seat the scan reaches last: the current seat, or seat n-1 before the first turn. */
  function LastScanned(n: nat, cur: int): (s: nat)
    requires 0 < n && -1 <= cur < n
    ensures s < n
  {
    if cur == -1 then n - 1 else cur
  }

  /** With two or more seats still playing, the turn moves to the nearest seat after the
      current one, going round the table, that has not won. */
  lemma NextTurnMovesToNearestActive(n: nat, won: seq<int>, cur: int, a: int, b: int)
    requires -1 <= cur < n
    requires 0 <= a < n && 0 <= b < n && a != b && a !in won && b !in won
    ensures NextTurn(n, won, cur).Moved?
    ensures var next := NextTurn(n, won, cur).next;
      0 <= next < n && next !in won &&
      forall s :: 0 <= s < n && s !in won ==>
        Offset(n, JsRem(cur + 1, n), next) <= Offset(n, JsRem(cur + 1, n), s)
  {
    var start := JsRem(cur + 1, n);
    ScanFacts(n, won, start, start, 0);
    var scan := Scan(n, won, start, 0);
    var oa, ob := Offset(n, start, a), Offset(n, start, b);
    assert oa != ob;
    assert scan.1 <= oa && scan.1 <= ob;
    assert scan.1 < n - 1;
    forall s | 0 <= s < n && s !in won
      ensures Offset(n, start, scan.0) <= Offset(n, start, s)
    {
      var os := Offset(n, start, s);
      assert !(os < scan.1);
    }
  }

  /** With one seat still playing, changeTurn declares it the winner when the scan reaches
      it last (it holds the turn, or it is seat n-1 before the first turn); otherwise it
      only hands it the turn. */
  lemma NextTurnWithOneActiveSeat(n: nat, won: seq<int>, cur: int, s: int)
    requires -1 <= cur < n && OnlyActive(n, won, s)
    ensures NextTurn(n, won, cur) == if s == LastScanned(n, cur) then Awarded(s) else Moved(s)
  {
    var start := JsRem(cur + 1, n);
    ScanFacts(n, won, start, start, 0);
    var scan := Scan(n, won, start, 0);
    var os := Offset(n, start, s);
    assert scan.1 <= os;
    forall d | 0 <= d < os ensures SeatAfter(n, start, d) in won {
      assert SeatAfter(n, start, d) != s;
    }
    assert scan.1 == os;
    assert LowestActiveSeat(n, won) == s;
    assert SeatAfter(n, start, n - 1) == LastScanned(n, cur);
  }

  /** When every seat has won, changeTurn still moves the turn one seat on. */
  lemma NextTurnAllWon(n: nat, won: seq<int>, cur: int)
    requires 0 < n && -1 <= cur < n && AllWon(n, won)
    ensures NextTurn(n, won, cur) == Moved(JsRem(cur + 1, n))
  {
    var start := JsRem(cur + 1, n);
    ScanFacts(n, won, start, start, 0);
    assert Scan(n, won, start, 0).1 == n;
  }

  /** As long as some seat has not won, changeTurn never gives the turn to a seat that has. */
  lemma NewTurnNeverWon(n: nat, won: seq<int>, cur: int, a: int)
    requires -1 <= cur < n && 0 <= a < n && a !in won
    ensures NextTurn(n, won, cur).Moved? ==> NextTurn(n, won, cur).next !in won
  {
    if OnlyActive(n, won, a) {
      NextTurnWithOneActiveSeat(n, won, cur, a);
    } else {
      var b :| 0 <= b < n && b != a && b !in won;
      NextTurnMovesToNearestActive(n, won, cur, a, b);
    }
  }

  /** The won list and the turn index after changeTurn. */
  function AfterTurnChange(n: nat, won: seq<int>, cur: int): (r: (seq<int>, int))
    ensures won <= r.0 && |r.0| <= |won| + 1
    ensures cur >= -1 ==> r.1 >= -1 && (forall w :: w in r.0 && w !in won ==> 0 <= w < n)
  {
    match NextTurn(n, won, cur)
    case Unchanged => (won, cur)
    case Moved(next) => (won, next)
    case Awarded(seat) => (won + [seat], cur)
  }

  /** After changeTurn the turn is held by a seat that has not won, unless every seat has
      won: the turn never rests on a winner while someone is still playing. */
  lemma TurnChangeLandsOnActiveSeat(n: nat, won: seq<int>, cur: int)
    requires 0 < n && -1 <= cur < n
    ensures AfterTurnChange(n, won, cur).1 !in AfterTurnChange(n, won, cur).0
         || AllWon(n, AfterTurnChange(n, won, cur).0)
  {
    if !AllWon(n, won) {
      var a :| 0 <= a < n && a !in won;
      if OnlyActive(n, won, a) {
        NextTurnWithOneActiveSeat(n, won, cur, a);
        if a == LastScanned(n, cur) {
          assert AllWon(n, won + [a]);
        }
      } else {
        var b :| 0 <= b < n && b != a && b !in won;
        NextTurnMovesToNearestActive(n, won, cur, a, b);
      }
    }
  }
}
